=== FILE: README.md ===
# FileOrganizer: the organize / undo ledger

FileOrganizer is a small desktop tool. The user picks a folder. The tool
moves every regular file directly inside it into
`<folder>/<extension>/<MM-DD-YYYY>/<file>`, where the date is the file's
creation date. It remembers the moves it made (`last_moves`), so one press
of "Undo" puts the files back and removes the folders it made if they are
empty. Names typed into a comma-separated exclusion dialog (`exclude_list`)
are skipped.

This project models that logic as pure functions over an abstract
filesystem and proves properties of them.

- The filesystem is a finite map from paths to entries. A path is a
  sequence of name components. An entry is `File(contents)` or `Dir`. The
  root `[]` always exists.
- `os.makedirs`, `shutil.move` and `os.rmdir` are map operations. Whether
  the platform refuses a move or a removal is an explicit input: a set of
  failing paths.
- The two globals become a `Session` value. The filesystem and the
  append-only log become a `World` value. `Organize` and `UndoLast` take
  both and return new ones.
- Module layout:
  - `Paths`, `FileSystem`: the model of the platform.
  - `Classifier`: where a file goes.
  - `Selection`: exclusion parsing and candidate files.
  - `Ledger`: session, log lines, move records.
  - `Organize` / `OrganizeComplete`: the organize loop.
  - `Undo`: replay and folder cleanup.
  - `Seqs`: order-keeping subsequences and sequences without repeats.
  - `RoundTrip`: organize followed by undo gives back the files.
  - `CleanupComplete`: when the cleanup removes every folder the run
    added.
  - `FolderRoundTrip`: organize followed by undo, for folders.

The undo cleanup keeps a quirk of the code. At `FileOrganizer.py:97`, the
extension folder is compared against `basename(dirname(src))`. There,
`src` is the replay loop's variable left over after the loop. It holds the
target of the *first* recorded move, so the comparison is against that
file's date folder name. `UndoLast` passes exactly that value as `quirk`.

## Model

| member | source | states |
|---|---|---|
| Classifier.BucketSpec | FileOrganizer.py:29 | the bucket is the text after the last dot when a non-dot character precedes that dot and text follows it, case kept; otherwise it is `No Extension`; a real extension holds no dot and is non-empty |
| Classifier.SplitExt | FileOrganizer.py:29 | `splitext(name)[1]` is empty or a suffix of the name that starts with its only dot and is preceded by some non-dot character |
| Classifier.Bucket | FileOrganizer.py:29 | the bucket is `No Extension` or a non-empty, dot-free proper suffix of the name |
| Classifier.DateTextRoundTrip | FileOrganizer.py:31 | the `MM-DD-YYYY` text of a valid date parses back to that same date |
| Classifier.DateTextInjective | FileOrganizer.py:31 | two valid dates have the same folder name exactly when they are equal |
| Classifier.DateText | FileOrganizer.py:31 | the folder name of a valid date is ten characters with dashes at positions 2 and 5 and holds no path separator |
| Classifier.ParsePadded | FileOrganizer.py:31 | a zero-padded decimal rendering of a number that fits the width reads back as that number |
| Classifier.Destination | FileOrganizer.py:32-34 | the destination is the directory followed by three components: bucket, date text, file name |
| Classifier.DestinationSeparates | FileOrganizer.py:32-34 | two files of one directory share a destination only if they have the same name, and no destination is the source path of a file in that directory |
| Selection.JoinSplit | FileOrganizer.py:63 | joining the pieces of `str.split(",")` with commas gives back the input |
| Selection.Split | FileOrganizer.py:63 | `str.split(",")` yields at least one piece, none holding a comma |
| Selection.SplitJoin | FileOrganizer.py:63 | splitting a comma-joined list of comma-free pieces gives back exactly those pieces |
| Selection.Strip | FileOrganizer.py:63 | `str.strip` keeps one contiguous slice of the input, all of whose removed prefix and suffix is whitespace, and the result neither starts nor ends with whitespace |
| Selection.StripTrimmed | FileOrganizer.py:63 | a string with no outer whitespace is its own strip |
| Selection.ParseExcludes | FileOrganizer.py:57-63 | a cancelled or empty answer excludes nothing; a non-empty answer excludes at least one name; every excluded name is comma-free and has no outer whitespace |
| Selection.ParseExcludesPieces | FileOrganizer.py:61-63 | for any comma-free pieces, typing them joined by commas excludes exactly the stripped pieces |
| Selection.ParseExcludesSpaced | FileOrganizer.py:61-63 | typing `a, b` with the usual blank after the comma excludes exactly `a` and `b` |
| Selection.ParseExcludesJoined | FileOrganizer.py:57-63 | typing a comma-separated list of trimmed comma-free names excludes exactly those names |
| Selection.Candidates | FileOrganizer.py:17-18 | a name is a candidate exactly when it is listed, is a regular file directly in the directory, and is not excluded; the candidates keep the listing order |
| Selection.CandidatesAreUnexcludedFiles | FileOrganizer.py:17-18 | with a genuine directory listing, the candidates are exactly the directory's regular files not excluded, each once |
| Ledger.GetExcludes | FileOrganizer.py:55-63 | `get_excludes` replaces the exclusion set by the parsed answer, empty on a cancelled or empty answer, and leaves the history alone |
| FileSystem.MakeDirs | FileOrganizer.py:33 | `makedirs` succeeds exactly when no prefix of the path is a regular file; on success the whole chain consists of folders; it keeps every entry and adds only folders on the chain |
| FileSystem.MakeDirsEffect | FileOrganizer.py:33 | `makedirs` leaves every file as it was, keeps every folder, and creates only prefixes of the path |
| FileSystem.Move | FileOrganizer.py:35 | a move succeeds exactly when the platform allows it, the source is a regular file, the destination is no folder and its parent exists; then the contents arrive at the destination, the source is gone and nothing else changes |
| FileSystem.MoveEffect | FileOrganizer.py:35 | a successful move moves exactly one file in the file map and keeps every folder |
| FileSystem.RemoveDir | FileOrganizer.py:91 | `rmdir` succeeds exactly when the platform allows it and the path is an empty folder other than the root; it then removes just that entry |
| FileSystem.RemoveDirKeepsFiles | FileOrganizer.py:91 | removing an empty folder leaves every file where it was |
| Organize.Step | FileOrganizer.py:27-42 | one file is moved and recorded exactly when it is a regular file the platform lets go of, its destination folder chain hits no regular file, and its destination is no folder; otherwise no file moves; only folders on its chain appear |
| Organize.Run | FileOrganizer.py:26-42 | the loop records at most one move per candidate |
| Organize.RunHistory | FileOrganizer.py:26-42 | the history is the planned record list with some entries left out, in processing order |
| Organize.RunSkipsFailures | FileOrganizer.py:35-42 | a file whose move the platform refuses is never recorded |
| Organize.RunFiles | FileOrganizer.py:26-42 | the files end up exactly as performing the recorded moves in order leaves them |
| Organize.RunFolders | FileOrganizer.py:32-33 | no folder disappears, and every new folder is on the destination chain of some candidate |
| Organize.Organize | FileOrganizer.py:14-42 | the previous history is discarded; the new one is a subsequence of the plan for the candidates; the files are the recorded moves applied; the log gains one `Moved` line per record, in order |
| OrganizeComplete.RunComplete | FileOrganizer.py:26-42 | when nothing obstructs the candidates, the history is exactly the plan of the files the platform does not refuse: a failure skips only that file |
| Undo.ReplayRestored | FileOrganizer.py:74-84 | the restored records are a subsequence of the replayed ones, and none has a move back the platform refused |
| Undo.ReplayFiles | FileOrganizer.py:74-79 | after the replay, the files are as the inverse moves of the restored records leave them |
| Undo.ReplayKeepsFolders | FileOrganizer.py:74-76 | the replay changes no folder |
| Undo.ReplayEffect | FileOrganizer.py:74-84 | the replay moves exactly the restored files back and changes no folder |
| Undo.ReplayComplete | FileOrganizer.py:74-84 | when every record's file is in place and the records' paths are pairwise distinct, a replay the platform does not refuse restores every record |
| Undo.Replay | FileOrganizer.py:74-84 | the replay restores at most every record, and when it restores as many as it replays they are the replayed records themselves |
| Undo.Folders | FileOrganizer.py:77-81 | the cleanup candidates are exactly the `dirname` of each restored target, each once |
| Undo.SortByLength | FileOrganizer.py:87 | the sort is a permutation of the candidates, with path text lengths non-increasing |
| Undo.CleanupOneShrinks | FileOrganizer.py:88-102 | visiting one candidate only removes folders, only it and its parent, and leaves every file |
| Undo.CleanupOneFolder | FileOrganizer.py:89-92 | the candidate is removed exactly when it is an empty folder other than the root that the platform lets go of, and exactly then is it logged as removed |
| Undo.CleanupOneExtension | FileOrganizer.py:94-99 | the extension folder is removed only right after its date folder, only if it is then empty and its name differs from the leftover `src` folder name; it is removed whenever, in addition, it is not the root and the platform lets it go |
| Undo.CleanupOneRules | FileOrganizer.py:88-102 | the combination of the three rules above for one candidate |
| Undo.CleanupOne | FileOrganizer.py:88-102 | one visit only removes entries and writes at most two log lines; a file in the folder's place, or an empty folder that is the root or that the platform keeps, logs exactly one failure line; when the folder and its extension folder both go, the log is the removal line of each, in that order |
| Undo.CleanupOneLog | FileOrganizer.py:88-102 | what one visit writes: one failure line when the folder's place holds a file or an empty folder stays; nothing when the folder is missing or not empty; the folder's removal line first when it goes; the extension folder's removal line exactly when that folder goes too |
| Undo.CleanupOneFailureLogged | FileOrganizer.py:89-101 | a visit logs a failure for the folder exactly when a removal it tries raises: the folder's place holds a file, the empty folder stays, or after the folder went its extension folder is a file, or an empty folder with a name that passed the test that stays |
| Undo.Cleanup | FileOrganizer.py:86-103 | the cleanup only removes entries and writes at most two log lines per visited folder |
| Undo.CleanupAppend | FileOrganizer.py:86-103 | visiting two lists of folders one after the other is visiting their concatenation, the logs following each other |
| Undo.CleanupVisitRemoves | FileOrganizer.py:86-103 | a failure on one folder does not stop the others: a folder whose turn comes while it is an empty non-root folder the platform lets go of is removed and logged as removed, whatever the earlier visits did |
| Undo.CleanupRemovesOnlyFolders | FileOrganizer.py:86-103 | the whole cleanup removes only folders, each one a visited candidate or its parent, and every file stays |
| Undo.ReplayCleanupFolders | FileOrganizer.py:74-103 | the replay followed by the cleanup of the restored files' folders creates no folder, and removes only those folders and their parents |
| CleanupComplete.FreshFoldersRemoved | FileOrganizer.py:86-103 | when the cleanup visits equally deep folders that cover every folder added since an earlier tree, and nothing else lies in those, with no removal refused the only added folder left is one level above the visited folders and bears the leftover `src` folder name |
| CleanupComplete.FreshExtensionRemoved | FileOrganizer.py:94-99 | an added folder one level above the visited ones, whose name differs from the leftover `src` folder name, does not survive the cleanup |
| Undo.Restored | FileOrganizer.py:74-84 | the restored records are a subsequence of the history in reverse order |
| Undo.UndoLast | FileOrganizer.py:66-105 | with an empty history nothing changes; otherwise the history is cleared whatever failed, the exclusion set stays, and the old log is a prefix of the new one |
| Undo.UndoFiles | FileOrganizer.py:74-103 | undo moves exactly the restored files back and touches no other file |
| Undo.UndoFolders | FileOrganizer.py:74-103 | undo creates no folder, and removes only the folders of restored files and their parents |
| Undo.UndoLog | FileOrganizer.py:79 | the log continues with one `Undo:` line per restored file, in replay order |
| Undo.UndoEffect | FileOrganizer.py:66-105 | all of the undo facts above, together with: no restored record is one whose move back was refused |
| RoundTrip.ApplyMovesLanded | FileOrganizer.py:35-36 | performing moves with distinct paths takes each file to its target and vacates each original |
| RoundTrip.ApplyMovesFrame | FileOrganizer.py:35-36 | performing moves with distinct paths keeps every file not moved, and creates files only at targets |
| RoundTrip.MovesThenUndoing | FileOrganizer.py:74-76 | performing moves with distinct paths and then their inverses in reverse order gives back the original file map |
| RoundTrip.PlanSeparated | FileOrganizer.py:32-36 | the plans of distinct names move distinct files to distinct places, and no target is an original |
| RoundTrip.PlannedRestorable | FileOrganizer.py:74-76 | records planned for names none of which is a folder, each file at its target, in an existing directory, can every one be moved back |
| RoundTrip.OrganizedRestorable | FileOrganizer.py:26-42 | after an unobstructed organize, whatever moves the platform refused, every recorded file is at its target, its original place is no folder, and that place's folder exists |
| RoundTrip.ClearRunReplays | FileOrganizer.py:74-84 | after an unobstructed organize, replaying the history backwards with no refusal restores every record |
| RoundTrip.ClearRunUndoing | FileOrganizer.py:74-76 | after an unobstructed organize, applying the inverse moves in reverse order gives back the original files |
| FolderRoundTrip.RunDateFolders | FileOrganizer.py:32-36 | after the organize loop, the date folder of every recorded move exists |
| FolderRoundTrip.PlanFolders | FileOrganizer.py:77-81 | replaying a full plan backwards, the cleanup candidates are exactly the date folders of the planned names |
| FolderRoundTrip.OrganizeThenUndoFolders | FileOrganizer.py:14-105 | in a tree where every entry lies in a folder, organize with nothing in the way and no move refused, then undo with no move and no removal refused: every folder left afterwards was there before, except possibly an extension folder directly inside the directory whose name is that of the first recorded file's date folder |
| RoundTrip.OrganizeThenUndo | FileOrganizer.py:14-105 | organize with nothing in the way (whatever moves it refuses), then undo with no refused move: the history is the plan of the surviving files, every record is restored, the history ends empty, and every file is back with its contents |

## Left out

- The Tk window, buttons, theming, progress bar and message boxes. They are UI only. A move that fails during organize or undo shows a message box and writes no log line. The model writes no log line either and has no message box.
- The folder dialog, `selected_folder` and `set_log_location`. Their results (the directory, the exclusion answer) are parameters.
- Opening the log file, and its location and encoding. The log is a sequence of `LogLine` values. `Render` gives the text formats of FileOrganizer.py:37, 79, 92, 99 and 101. The text of a caught exception is not modelled.
- `os.path.getctime` and `datetime.fromtimestamp`. Creation dates depend on the clock and the time zone, so each file's date is a parameter (`dateOf`).
- Years below 1000. `strftime('%Y')` may not pad them to four digits. The model only takes years 1 to 9999 and always pads to four digits.
- `shutil.move` onto an existing folder. Python would move the file inside that folder. The model treats such a move as a failure.
- Symbolic links, permissions, and races with other processes. Refused moves and refused folder removals are the `failing` and `rmFailing` inputs.
- FileSystem: path names are compared exactly, as on a case-sensitive file system. On a case-insensitive one (the Windows and macOS defaults), a file and a folder whose names differ only in case collide. `Unobstructed` and `ClearRun` do not rule that out. For example, with files `TXT` and `a.txt`, creating `txt/<date>` at FileOrganizer.py:33 fails on such a system, and a move back at FileOrganizer.py:76 can land inside a folder `TXT`.
- FileSystem.MakeDirs: fails only when a prefix of the path is a regular file. There is no refusal input for folder creation, so a `makedirs` refused for other reasons (permissions, a full disk) is not modelled.
- Undo.SortByLength: Python breaks ties between equal-length paths by set iteration order, which is hash-dependent. The model breaks them in an order of its own. Only the non-increasing length order is stated.
- RoundTrip.OrganizeThenUndo: the theorem needs an unobstructed run, with no destination pre-existing and no folder on a destination chain being a file. This excludes, for example, a file named `txt` next to `a.txt`. On a case-insensitive file system it would also have to exclude `TXT` next to `a.txt`, which it does not, since names are compared exactly.
- FolderRoundTrip.OrganizeThenUndoFolders: stated only when no organize move, no move back and no folder removal is refused. A refused organize move leaves its date folder behind: `makedirs` (FileOrganizer.py:33) creates it before the move (FileOrganizer.py:35) raises, the move is not recorded, and undo only visits the folders of recorded moves. A refused move back or removal leaves its folders behind in the same way.
- FolderRoundTrip.OrganizeThenUndoFolders: assumes every entry of the tree lies in a folder of the tree, as on a disk. The filesystem map allows entries without a parent folder; such trees are not covered.
- The icon loading and the application's main loop. They are UI only.

=== FILE: classifier.dfy ===
/** The classifier: where `organizer` sends one file. The destination is
    `directory/<extension>/<MM-DD-YYYY>/<filename>`, the extension taken by
    the rules of `os.path.splitext` and the date by `strftime('%m-%d-%Y')`. */
module Classifier {
  import opened Wrappers
  import opened Paths

  /** The bucket of a file without an extension. */
  const NoExtension := "No Extension"

  /** The index of the last `.` in `s`. */
  function LastDot(s: string): (r: Option<nat>)
    ensures r.Some? ==> r.value < |s| && s[r.value] == '.'
    ensures r.Some? ==> forall j | r.value < j < |s| :: s[j] != '.'
    ensures r.None? ==> forall j | 0 <= j < |s| :: s[j] != '.'
  {
    if |s| == 0 then None
    else if s[|s| - 1] == '.' then Some(|s| - 1)
    else LastDot(s[..|s| - 1])
  }

  /** Some character before index `k` is not a dot. */
  predicate NonDotBefore(s: string, k: nat)
    requires k <= |s|
  {
    exists i | 0 <= i < k :: s[i] != '.'
  }

  /** `os.path.splitext(name)[1]`: from the last dot on, provided a
      non-dot character precedes that dot; otherwise empty. */
  function SplitExt(name: string): (r: string)
    ensures r != "" ==> && |r| <= |name| && r == name[|name| - |r|..]
                        && r[0] == '.' && '.' !in r[1..] && NonDotBefore(name, |name| - |r|)
  {
    match LastDot(name)
    case None => ""
    case Some(k) =>
      if NonDotBefore(name, k) then
        assert forall j | 0 <= j < |name[k..][1..]| :: name[k..][1..][j] == name[k + 1 + j];
        name[k..]
      else ""
  }

  /** `splitext(name)[1][1:] or 'No Extension'`. */
  function Bucket(name: string): (r: string)
    ensures r == NoExtension || (r != "" && '.' !in r && |r| < |name| && r == name[|name| - |r|..])
  {
    var e := SplitExt(name);
    if |e| <= 1 then NoExtension
    else
      assert e[1..] == name[|name| - |e| + 1..];
      e[1..]
  }

  /** Index `k` holds the dot that starts a non-empty extension: it is the
      last dot, it is not the final character, and it is not one of the
      leading dots of the name. */
  ghost predicate ExtensionDot(name: string, k: int)
  {
    && 0 <= k < |name| - 1
    && name[k] == '.'
    && (forall j | k < j < |name| :: name[j] != '.')
    && NonDotBefore(name, k)
  }

  /** The bucket is the text after the extension dot, case kept, when there
      is one, and `No Extension` exactly when there is none. */
  lemma BucketSpec(name: string)
    ensures forall k | ExtensionDot(name, k) :: Bucket(name) == name[k + 1..]
    ensures (forall k :: !ExtensionDot(name, k)) ==> Bucket(name) == NoExtension
    ensures (exists k :: ExtensionDot(name, k)) ==> '.' !in Bucket(name) && |Bucket(name)| > 0
  {
    match LastDot(name)
    case None =>
      assert forall k :: !ExtensionDot(name, k);
    case Some(k) =>
      forall k' | ExtensionDot(name, k') ensures k' == k {
        assert name[k] == '.' && name[k'] == '.';
      }
      if NonDotBefore(name, k) && k < |name| - 1 {
        assert ExtensionDot(name, k);
        assert name[k..][1..] == name[k + 1..];
      }
  }

  lemma BucketOfDoubleExtension()
    ensures Bucket("a.tar.gz") == "gz"
  {
    BucketSpec("a.tar.gz");
    assert "a.tar.gz"[0] != '.';
    assert ExtensionDot("a.tar.gz", 5);
  }

  lemma BucketOfDotFile()
    ensures Bucket(".bashrc") == NoExtension
  {
    BucketSpec(".bashrc");
  }

  lemma BucketOfTrailingDot()
    ensures Bucket("name.") == NoExtension
  {
    BucketSpec("name.");
  }

  /** A calendar date, as `datetime.fromtimestamp` produces one. */
  datatype Date = Date(year: int, month: int, day: int)

  function DaysInMonth(year: int, month: int): int
  {
    if month == 2 then
      (if year % 4 == 0 && (year % 100 != 0 || year % 400 == 0) then 29 else 28)
    else if month in {4, 6, 9, 11} then 30
    else 31
  }

  predicate ValidDate(d: Date)
  {
    && 1 <= d.year <= 9999
    && 1 <= d.month <= 12
    && 1 <= d.day <= DaysInMonth(d.year, d.month)
  }

  function Digit(n: nat): (c: char)
    requires n < 10
    ensures '0' <= c <= '9' && c as int - '0' as int == n
  {
    "0123456789"[n]
  }

  function DigitValue(c: char): Option<nat>
  {
    if '0' <= c <= '9' then Some(c as int - '0' as int) else None
  }

  /** `n` as exactly `width` decimal digits, zero-padded on the left. */
  function Padded(n: nat, width: nat): (r: string)
    requires n < Pow10(width)
    ensures |r| == width
    ensures forall i | 0 <= i < |r| :: '0' <= r[i] <= '9'
  {
    if width == 0 then "" else Padded(n / 10, width - 1) + [Digit(n % 10)]
  }

  function Pow10(k: nat): nat
  {
    if k == 0 then 1 else 10 * Pow10(k - 1)
  }

  /** Reads back a run of decimal digits. */
  function ParseDigits(s: string): Option<nat>
  {
    if |s| == 0 then Some(0)
    else match (ParseDigits(s[..|s| - 1]), DigitValue(s[|s| - 1]))
      case (Some(h), Some(d)) => Some(10 * h + d)
      case _ => None
  }

  /** Appending a digit to a run of digits appends it to the number. */
  lemma ParseDigitsSnoc(t: string, h: nat, d: nat)
    requires ParseDigits(t) == Some(h) && d < 10
    ensures ParseDigits(t + [Digit(d)]) == Some(10 * h + d)
  {
    var s := t + [Digit(d)];
    assert s[..|s| - 1] == t;
  }

  lemma DropLastDigit(n: nat, width: nat)
    requires width > 0 && n < Pow10(width)
    ensures n / 10 < Pow10(width - 1) && n == 10 * (n / 10) + n % 10
  {
    var p := Pow10(width - 1);
    assert n < 10 * p;
  }

  lemma {:induction false} ParsePadded(n: nat, width: nat)
    requires n < Pow10(width)
    ensures ParseDigits(Padded(n, width)) == Some(n)
  {
    if width > 0 {
      var q, d := n / 10, n % 10;
      DropLastDigit(n, width);
      assert Padded(n, width) == Padded(q, width - 1) + [Digit(d)];
      ParsePadded(q, width - 1);
      ParseDigitsSnoc(Padded(q, width - 1), q, d);
    }
  }

  /** `strftime('%m-%d-%Y')`. */
  function DateText(d: Date): (r: string)
    requires ValidDate(d)
    ensures |r| == 10 && r[2] == '-' && r[5] == '-'
    ensures '/' !in r
  {
    Padded(d.month, 2) + "-" + Padded(d.day, 2) + "-" + Padded(d.year, 4)
  }

  /** Reads `MM-DD-YYYY` back into a date. */
  function ParseDateText(s: string): Option<Date>
  {
    if |s| != 10 || s[2] != '-' || s[5] != '-' then None
    else match (ParseDigits(s[..2]), ParseDigits(s[3..5]), ParseDigits(s[6..]))
      case (Some(m), Some(d), Some(y)) => Some(Date(y, m, d))
      case _ => None
  }

  /** The date folder name determines the date: reading it back gives the
      date it was made from. */
  lemma DateTextRoundTrip(d: Date)
    requires ValidDate(d)
    ensures ParseDateText(DateText(d)) == Some(d)
  {
    var s := DateText(d);
    assert s[..2] == Padded(d.month, 2);
    assert s[3..5] == Padded(d.day, 2);
    assert s[6..] == Padded(d.year, 4);
    ParsePadded(d.month, 2);
    ParsePadded(d.day, 2);
    ParsePadded(d.year, 4);
  }

  lemma DateTextInjective(d1: Date, d2: Date)
    requires ValidDate(d1) && ValidDate(d2)
    ensures DateText(d1) == DateText(d2) <==> d1 == d2
  {
    if DateText(d1) == DateText(d2) {
      DateTextRoundTrip(d1);
      DateTextRoundTrip(d2);
    }
  }

  /** `os.path.join(directory, ext, date, filename)`. */
  function Destination(dir: Path, name: string, date: Date): (r: Path)
    requires ValidDate(date)
    ensures |r| == |dir| + 3 && r[..|dir|] == dir
    ensures Basename(r) == name
    ensures Basename(Parent(r)) == DateText(date)
    ensures Basename(Parent(Parent(r))) == Bucket(name)
    ensures Parent(Parent(Parent(r))) == dir
  {
    dir + [Bucket(name), DateText(date), name]
  }

  /** Two files of one directory share a destination only if they are the
      same file, and no destination is the source path of any file there. */
  lemma DestinationSeparates(dir: Path, n1: string, d1: Date, n2: string, d2: Date)
    requires ValidDate(d1) && ValidDate(d2)
    ensures Destination(dir, n1, d1) == Destination(dir, n2, d2) ==> n1 == n2
    ensures Destination(dir, n1, d1) != Join(dir, n2)
  {
  }
}

=== FILE: cleanup_complete.dfy ===
/** When the cleanup loop of `undo_last` removes every folder it should.
    The setting is the tree after the replay, compared with an earlier tree
    `before`. The cleanup visits folders that are all equally deep, and
    every folder added since `before` is one of them or the parent of one.
    Then, with no removal refused, every added folder goes, except an
    extension folder whose name is the one the extension-folder test
    compares against. */
module CleanupComplete {
  import opened Paths
  import opened FileSystem
  import opened Seqs
  import opened Undo

  /** `p` is a folder of `fs` that `before` did not have. */
  ghost predicate Fresh(before: FS, fs: FS, p: Path)
  {
    IsDir(fs, p) && !IsDir(before, p)
  }

  /** What the cleanup of `order` needs in order to remove every fresh
      folder of `fs`:
      - the order has no repeats and visits existing folders only, all
        `depth` components deep;
      - a fresh folder is `depth` deep, and then visited, or one less, and
        then the parent of a visited folder;
      - whatever lies inside a fresh folder is a fresh folder. */
  ghost predicate Tidy(before: FS, fs: FS, order: seq<Path>, depth: nat)
  {
    && depth >= 2
    && Distinct(order)
    && (forall i | 0 <= i < |order| :: |order[i]| == depth && IsDir(fs, order[i]))
    && (forall p | Fresh(before, fs, p) :: |p| == depth || |p| == depth - 1)
    && (forall p | Fresh(before, fs, p) && |p| == depth :: p in order)
    && (forall p | Fresh(before, fs, p) && |p| == depth - 1 ::
          exists i | 0 <= i < |order| :: Parent(order[i]) == p)
    && (forall p, q | Fresh(before, fs, p) && q in fs && InDir(q, p) :: Fresh(before, fs, q))
  }

  /** The tree once the first `k` folders of `order` have been visited,
      with no removal refused. */
  function VisitedUpTo(fs: FS, order: seq<Path>, k: nat, quirk: string): (r: FS)
    requires k <= |order|
    ensures r.Keys <= fs.Keys
  {
    Cleanup(fs, order[..k], quirk, {}).0
  }

  /** Later visits only take entries away. */
  lemma VisitedShrinks(fs: FS, order: seq<Path>, j: nat, k: nat, quirk: string)
    requires j <= k <= |order|
    ensures VisitedUpTo(fs, order, k, quirk).Keys <= VisitedUpTo(fs, order, j, quirk).Keys
  {
    assert order[..k] == order[..j] + order[j..k];
    CleanupAppend(fs, order[..j], order[j..k], quirk, {});
  }

  /** The cleanup seen from the visit of `order[k]`: the first `k` visits,
      that visit, then the rest. */
  lemma CleanupAtVisit(fs: FS, order: seq<Path>, k: nat, quirk: string)
    requires k < |order|
    ensures var one := CleanupOne(VisitedUpTo(fs, order, k, quirk), order[k], quirk, {});
      Cleanup(fs, order, quirk, {}).0 == Cleanup(one.0, order[k + 1..], quirk, {}).0
  {
    assert order == order[..k] + order[k..];
    CleanupAppend(fs, order[..k], order[k..], quirk, {});
    assert order[k..][0] == order[k] && order[k..][1..] == order[k + 1..];
  }

  /** The entries visits have not removed are as they were. */
  lemma VisitedKeeps(fs: FS, order: seq<Path>, k: nat, quirk: string, p: Path)
    requires k <= |order| && p in VisitedUpTo(fs, order, k, quirk)
    ensures p in fs && VisitedUpTo(fs, order, k, quirk)[p] == fs[p]
  {
    CleanupRemovesOnlyFolders(fs, order[..k], quirk, {});
  }

  /** The last visit of a folder directly inside `p`. */
  function LastChildVisit(order: seq<Path>, p: Path): (k: nat)
    requires exists i | 0 <= i < |order| :: Parent(order[i]) == p
    ensures k < |order| && Parent(order[k]) == p
    ensures forall i | k < i < |order| :: Parent(order[i]) != p
    decreases |order|
  {
    var n := |order| - 1;
    if Parent(order[n]) == p then n
    else
      assert exists i | 0 <= i < n :: Parent(order[..n][i]) == p by {
        var i :| 0 <= i < |order| && Parent(order[i]) == p;
        assert i < n && order[..n][i] == order[i];
      }
      LastChildVisit(order[..n], p)
  }

  /** A fresh visited folder is still there, and empty, when its turn comes. */
  lemma EmptyAtTurn(before: FS, fs: FS, order: seq<Path>, depth: nat, quirk: string, k: nat)
    requires Tidy(before, fs, order, depth) && k < |order| && Fresh(before, fs, order[k])
    ensures IsEmptyDir(VisitedUpTo(fs, order, k, quirk), order[k])
  {
    var mid := VisitedUpTo(fs, order, k, quirk);
    var f := order[k];
    CleanupRemovesOnlyFolders(fs, order[..k], quirk, {});
    if f !in mid {
      assert VisitedOrParent(f, order[..k]);
      var i :| 0 <= i < k && (f == order[..k][i] || f == Parent(order[..k][i]));
      assert false;
    }
    forall q | q in mid ensures !InDir(q, f) {
      if InDir(q, f) {
        assert false;
      }
    }
  }

  /** A fresh visited folder is gone after its visit, whatever the earlier
      visits did. */
  lemma FreshDateRemoved(before: FS, fs: FS, order: seq<Path>, depth: nat, quirk: string, k: nat, j: nat)
    requires Tidy(before, fs, order, depth) && k < j <= |order| && Fresh(before, fs, order[k])
    ensures order[k] !in VisitedUpTo(fs, order, j, quirk)
  {
    EmptyAtTurn(before, fs, order, depth, quirk, k);
    var upto := order[..k + 1];
    assert upto[..k] == order[..k] && upto[k] == order[k];
    CleanupVisitRemoves(fs, upto, k, quirk, {});
    VisitedShrinks(fs, order, k + 1, j, quirk);
  }

  /** A fresh visited folder does not survive the cleanup. */
  lemma FreshDateGone(before: FS, fs: FS, order: seq<Path>, depth: nat, quirk: string, k: nat)
    requires Tidy(before, fs, order, depth) && k < |order| && Fresh(before, fs, order[k])
    ensures order[k] !in Cleanup(fs, order, quirk, {}).0
  {
    FreshDateRemoved(before, fs, order, depth, quirk, k, |order|);
    assert order[..|order|] == order;
  }

  /** When the last folder inside it is visited and removed, a fresh
      folder one level up is empty: every other folder inside it was
      visited, and removed, before. */
  lemma EmptyAfterLastChild(before: FS, fs: FS, order: seq<Path>, depth: nat, quirk: string, p: Path, k: nat)
    requires Tidy(before, fs, order, depth) && Fresh(before, fs, p) && |p| == depth - 1
    requires k < |order| && Parent(order[k]) == p
    requires forall i | k < i < |order| :: Parent(order[i]) != p
    requires p in VisitedUpTo(fs, order, k, quirk)
    ensures IsEmptyDir(VisitedUpTo(fs, order, k, quirk) - {order[k]}, p)
  {
    var mid := VisitedUpTo(fs, order, k, quirk);
    VisitedKeeps(fs, order, k, quirk, p);
    forall q | q in mid - {order[k]} ensures !InDir(q, p) {
      if InDir(q, p) {
        assert Fresh(before, fs, q);
        var i :| 0 <= i < |order| && order[i] == q;
        assert Parent(q) == p;
        assert i < k;
        FreshDateRemoved(before, fs, order, depth, quirk, i, k);
        assert false;
      }
    }
  }

  /** A fresh folder one level above the visited ones goes too, unless its
      name is `quirk`. */
  lemma FreshExtensionRemoved(before: FS, fs: FS, order: seq<Path>, depth: nat, quirk: string, p: Path)
    requires Tidy(before, fs, order, depth) && Fresh(before, fs, p) && |p| == depth - 1
    requires Basename(p) != quirk
    ensures p !in Cleanup(fs, order, quirk, {}).0
  {
    var k := LastChildVisit(order, p);
    CleanupAtVisit(fs, order, k, quirk);
    if p in VisitedUpTo(fs, order, k, quirk) {
      ExtensionGoesWithLastChild(before, fs, order, depth, quirk, p, k);
    }
  }

  /** The visit of the last folder inside a fresh folder one level up
      removes that folder as well, unless its name is `quirk`. */
  lemma ExtensionGoesWithLastChild(before: FS, fs: FS, order: seq<Path>, depth: nat, quirk: string, p: Path, k: nat)
    requires Tidy(before, fs, order, depth) && Fresh(before, fs, p) && |p| == depth - 1
    requires Basename(p) != quirk
    requires k < |order| && Parent(order[k]) == p
    requires forall i | k < i < |order| :: Parent(order[i]) != p
    requires p in VisitedUpTo(fs, order, k, quirk)
    ensures p !in CleanupOne(VisitedUpTo(fs, order, k, quirk), order[k], quirk, {}).0
  {
    var date := order[k];
    var mid := VisitedUpTo(fs, order, k, quirk);
    assert InDir(date, p);
    assert Fresh(before, fs, date);
    EmptyAtTurn(before, fs, order, depth, quirk, k);
    CleanupOneFolder(mid, date, quirk, {});
    EmptyAfterLastChild(before, fs, order, depth, quirk, p, k);
    CleanupOneExtension(mid, date, quirk, {});
  }

  /** After the cleanup, the only fresh folder that can remain is one level
      above the visited folders and named `quirk`. */
  lemma FreshFoldersRemoved(before: FS, fs: FS, order: seq<Path>, depth: nat, quirk: string)
    requires Tidy(before, fs, order, depth)
    ensures var r := Cleanup(fs, order, quirk, {}).0;
      forall p | Fresh(before, fs, p) && p in r :: |p| == depth - 1 && Basename(p) == quirk
  {
    var r := Cleanup(fs, order, quirk, {}).0;
    forall p | Fresh(before, fs, p) && p in r ensures |p| == depth - 1 && Basename(p) == quirk {
      if |p| == depth {
        var k :| 0 <= k < |order| && order[k] == p;
        FreshDateGone(before, fs, order, depth, quirk, k);
      } else if Basename(p) != quirk {
        FreshExtensionRemoved(before, fs, order, depth, quirk, p);
      }
    }
  }
}

=== FILE: filesystem.dfy ===
/** An abstract filesystem: a finite map from paths to entries. The
    operations are the three calls the organizer makes — `os.makedirs`,
    `shutil.move` and `os.rmdir` — with whether the platform refuses a move
    or a removal supplied as an explicit `fails` flag. The root directory
    `[]` is never an entry and always exists. */
module FileSystem {
  import opened Wrappers
  import opened Paths

  datatype Entry = File(contents: string) | Dir

  type FS = map<Path, Entry>

  predicate IsFile(fs: FS, p: Path)
  {
    p in fs && fs[p].File?
  }

  predicate IsDir(fs: FS, p: Path)
  {
    p == [] || (p in fs && fs[p].Dir?)
  }

  /** `q` is an entry directly inside `p`. */
  predicate InDir(q: Path, p: Path)
  {
    |q| == |p| + 1 && q[..|p|] == p
  }

  /** `os.path.exists(p) and not os.listdir(p)` for a directory. */
  predicate IsEmptyDir(fs: FS, p: Path)
  {
    IsDir(fs, p) && forall q | q in fs :: !InDir(q, p)
  }

  /** The names `os.listdir(d)` reports. */
  function Names(fs: FS, d: Path): set<string>
  {
    set q | q in fs && InDir(q, d) :: q[|d|]
  }

  /** The names of the regular files directly inside `d`. */
  function DirectFiles(fs: FS, d: Path): (r: set<string>)
    ensures forall n :: n in r <==> IsFile(fs, Join(d, n))
  {
    var r := set q | q in fs && InDir(q, d) && fs[q].File? :: q[|d|];
    assert forall n :: IsFile(fs, Join(d, n)) ==> n in r by {
      forall n | IsFile(fs, Join(d, n)) ensures n in r {
        var q := Join(d, n);
        assert q in fs && InDir(q, d) && fs[q].File? && q[|d|] == n;
      }
    }
    assert forall n :: n in r ==> IsFile(fs, Join(d, n)) by {
      forall n | n in r ensures IsFile(fs, Join(d, n)) {
        var q :| q in fs && InDir(q, d) && fs[q].File? && q[|d|] == n;
        assert q == Join(d, n);
      }
    }
    r
  }

  /** `listing` is what `os.listdir(d)` returned: every name once, in the
      platform's order. */
  ghost predicate IsListing(fs: FS, d: Path, listing: seq<string>)
  {
    && (forall i, j | 0 <= i < j < |listing| :: listing[i] != listing[j])
    && (forall n :: n in listing <==> n in Names(fs, d))
  }

  /** Every non-empty prefix `p[..i]` with `i <= hi` is a directory. */
  predicate PrefixesAreDirs(fs: FS, p: Path, hi: nat)
    requires hi <= |p|
  {
    forall i | 1 <= i <= hi :: IsDir(fs, p[..i])
  }

  /** Some non-empty prefix of `p` (including `p` itself) is a regular file. */
  predicate PrefixIsFile(fs: FS, p: Path)
  {
    exists i | 1 <= i <= |p| :: IsFile(fs, p[..i])
  }

  /** `os.makedirs(p, exist_ok=True)`: create every missing folder of the
      chain from the root down; stop with an error at the first component
      that exists as a regular file. The folders made before the error stay. */
  function MakeDirs(fs: FS, p: Path): (r: (FS, bool))
    decreases |p|
    ensures r.1 <==> !PrefixIsFile(fs, p)
    ensures r.1 ==> PrefixesAreDirs(r.0, p, |p|)
    ensures forall q | q in fs :: q in r.0 && r.0[q] == fs[q]
    ensures forall q | q in r.0 && q !in fs :: r.0[q] == Dir && 1 <= |q| <= |p| && q == p[..|q|]
  {
    if |p| == 0 then (fs, true)
    else
      var up := p[..|p| - 1];
      assert forall i | 1 <= i <= |up| :: up[..i] == p[..i];
      var (fs1, ok) := MakeDirs(fs, up);
      if !ok then (fs1, false)
      else if p in fs1 then
        assert p[..|p|] == p;
        (fs1, fs1[p].Dir?)
      else
        assert p[..|p|] == p;
        (fs1[p := Dir], true)
  }

  /** The destination's folder exists (the root always does). */
  predicate ParentExists(fs: FS, dst: Path)
  {
    |dst| > 0 && IsDir(fs, Parent(dst))
  }

  /** `shutil.move(src, dst)` of a regular file: the file leaves `src` and
      its contents appear at `dst`, replacing a file already there. It fails,
      changing nothing, when the platform refuses (`fails`), `src` is not a
      regular file, `dst` is an existing directory or has no parent folder. */
  function Move(fs: FS, src: Path, dst: Path, fails: bool): (r: Option<FS>)
    ensures r.Some? <==> !fails && IsFile(fs, src) && !IsDir(fs, dst) && ParentExists(fs, dst)
    ensures r.Some? ==> dst in r.value && r.value[dst] == fs[src]
    ensures r.Some? && src != dst ==> src !in r.value
    ensures r.Some? ==> forall q | q != src && q != dst ::
      (q in r.value <==> q in fs) && (q in fs ==> r.value[q] == fs[q])
  {
    if fails || !IsFile(fs, src) || IsDir(fs, dst) || !ParentExists(fs, dst) then None
    else Some((fs - {src})[dst := fs[src]])
  }

  /** `os.rmdir(p)`: removes an empty directory; fails, changing nothing,
      when the platform refuses or `p` is not an empty directory. */
  function RemoveDir(fs: FS, p: Path, fails: bool): (r: Option<FS>)
    ensures r.Some? <==> !fails && p != [] && IsEmptyDir(fs, p)
    ensures r.Some? ==> r.value.Keys == fs.Keys - {p}
    ensures r.Some? ==> forall q | q in r.value :: r.value[q] == fs[q]
  {
    if fails || p == [] || !IsEmptyDir(fs, p) then None else Some(fs - {p})
  }

  /** The regular files and their contents: what a user of the directory
      tree cares about, with folders forgotten. */
  function Files(fs: FS): (m: map<Path, string>)
    ensures forall p :: p in m <==> IsFile(fs, p)
    ensures forall p | p in m :: IsFile(fs, p) && m[p] == fs[p].contents
  {
    map p | p in fs && fs[p].File? :: fs[p].contents
  }

  /** The file map after moving the file at `a` to `b`. */
  function MoveKey(m: map<Path, string>, a: Path, b: Path): (r: map<Path, string>)
    ensures a in m ==> b in r && r[b] == m[a] && (a != b ==> a !in r)
    ensures a !in m ==> r == m
    ensures forall q | q in r :: q in m || q == b
    ensures forall q | q in m && q != a && q != b :: q in r && r[q] == m[q]
  {
    if a in m then (m - {a})[b := m[a]] else m
  }

  /** A successful move moves one file, replacing whatever file was at the
      destination, and leaves every folder where it was. */
  lemma MoveEffect(fs: FS, src: Path, dst: Path, fails: bool)
    requires Move(fs, src, dst, fails).Some?
    ensures var fs' := Move(fs, src, dst, fails).value;
      && Files(fs') == MoveKey(Files(fs), src, dst)
      && forall p :: IsDir(fs', p) <==> IsDir(fs, p)
  {
    var fs' := Move(fs, src, dst, fails).value;
    var m := MoveKey(Files(fs), src, dst);
    assert Files(fs').Keys == m.Keys;
    if src == dst {
      assert fs' == fs;
    }
  }

  /** `makedirs` only ever adds folders. */
  lemma MakeDirsEffect(fs: FS, p: Path)
    ensures var fs' := MakeDirs(fs, p).0;
      && Files(fs') == Files(fs)
      && (forall q | IsDir(fs, q) :: IsDir(fs', q))
      && (forall q | IsDir(fs', q) && !IsDir(fs, q) :: 1 <= |q| <= |p| && q == p[..|q|])
  {
    var fs' := MakeDirs(fs, p).0;
    DroppingFoldersKeepsFiles(fs', fs);
  }

  /** Removing an empty folder leaves every file where it was. */
  lemma RemoveDirKeepsFiles(fs: FS, p: Path, fails: bool)
    requires RemoveDir(fs, p, fails).Some?
    ensures Files(RemoveDir(fs, p, fails).value) == Files(fs)
  {
    var fs' := RemoveDir(fs, p, fails).value;
    assert Files(fs').Keys == Files(fs).Keys;
  }

  /** Dropping folders from a tree leaves its files as they were. */
  lemma DroppingFoldersKeepsFiles(fs: FS, fs': FS)
    requires forall p | p in fs' :: p in fs && fs'[p] == fs[p]
    requires forall p | p in fs && p !in fs' :: fs[p] == Dir
    ensures Files(fs') == Files(fs)
  {
    assert Files(fs').Keys == Files(fs).Keys;
  }
}

=== FILE: folder_roundtrip.dfy ===
/** Organize followed by undo, for folders: when nothing stands in the
    way and nothing is refused, undo removes every folder the organizer
    created, except an extension folder that happens to carry the name of
    the first recorded file's date folder (the leftover `src` of the
    extension-folder test). */
module FolderRoundTrip {
  import opened Paths
  import opened FileSystem
  import opened Classifier
  import opened Selection
  import opened Ledger
  import opened Seqs
  import opened Organize
  import opened OrganizeComplete
  import opened Undo
  import opened RoundTrip
  import opened CleanupComplete

  /** Every entry lies in a folder, as on a disk. */
  ghost predicate WellFormed(fs: FS)
  {
    forall q | q in fs :: IsDir(fs, Parent(q))
  }

  /** Every prefix of a folder of a well-formed tree is a folder. */
  lemma {:induction false} PrefixesOfFolder(fs: FS, q: Path, i: nat)
    requires WellFormed(fs) && IsDir(fs, q) && i <= |q|
    ensures IsDir(fs, q[..i])
    decreases |q|
  {
    if i < |q| {
      assert q in fs;
      assert Parent(q)[..i] == q[..i];
      PrefixesOfFolder(fs, Parent(q), i);
    } else {
      assert q[..i] == q;
    }
  }

  /** The date folder organizing `name` moves it into. */
  function DateFolder(dir: Path, name: string, dateOf: string -> CalendarDate): (r: Path)
    ensures |r| == |dir| + 2 && r[..|dir|] == dir
  {
    Parent(Destination(dir, name, dateOf(name)))
  }

  /** The date folder of every record of `h` is a folder of `fs`. */
  ghost predicate DateFoldersExist(fs: FS, h: seq<MoveRecord>)
  {
    forall i | 0 <= i < |h| :: IsDir(fs, Parent(h[i].target))
  }

  lemma DateFoldersCons(fs: FS, x: MoveRecord, rest: seq<MoveRecord>)
    requires IsDir(fs, Parent(x.target)) && DateFoldersExist(fs, rest)
    ensures DateFoldersExist(fs, [x] + rest)
  {
    var h := [x] + rest;
    forall i | 0 < i < |h| ensures IsDir(fs, Parent(h[i].target)) {
      assert h[i] == rest[i - 1];
    }
  }

  /** After a run, the date folder of every recorded move exists. */
  lemma {:induction false} RunDateFolders(fs: FS, dir: Path, names: seq<string>, dateOf: string -> CalendarDate, failing: set<Path>)
    ensures var r := Run(fs, dir, names, dateOf, failing);
      DateFoldersExist(r.0, r.1)
    decreases |names|
  {
    if |names| > 0 {
      var st := Step(fs, dir, names[0], dateOf(names[0]), failing);
      var rest := Run(st.0, dir, names[1..], dateOf, failing);
      RunDateFolders(st.0, dir, names[1..], dateOf, failing);
      if st.1.Some? {
        assert IsDir(st.0, Parent(st.1.value.target));
        RunFolders(st.0, dir, names[1..], dateOf, failing);
        DateFoldersCons(rest.0, st.1.value, rest.1);
      }
    }
  }

  /** The date folder of the `j`-th planned move. */
  lemma PlanFolder(dir: Path, names: seq<string>, dateOf: string -> CalendarDate, j: nat)
    requires j < |names|
    ensures Parent(Plan(dir, names, dateOf)[j].target) == DateFolder(dir, names[j], dateOf)
  {
  }

  /** Every name of a plan has its date folder among the plan's. */
  lemma PlanHasFolder(dir: Path, names: seq<string>, dateOf: string -> CalendarDate, n: string)
    requires n in names
    ensures exists j | 0 <= j < |names| :: Parent(Plan(dir, names, dateOf)[j].target) == DateFolder(dir, n, dateOf)
  {
    var j :| 0 <= j < |names| && names[j] == n;
    PlanFolder(dir, names, dateOf, j);
  }

  /** Folders of records whose date folders are those of `names`, in
      reverse order, are the date folders of `names`. */
  lemma RecordFolders(dir: Path, names: seq<string>, dateOf: string -> CalendarDate, done: seq<MoveRecord>, folders: seq<Path>)
    requires |done| == |names|
    requires forall i | 0 <= i < |done| :: Parent(done[i].target) == DateFolder(dir, names[|names| - 1 - i], dateOf)
    requires forall f :: f in folders <==> exists i | 0 <= i < |done| :: f == Parent(done[i].target)
    ensures forall f :: f in folders <==> exists n | n in names :: f == DateFolder(dir, n, dateOf)
  {
    forall f | f in folders ensures exists n | n in names :: f == DateFolder(dir, n, dateOf) {
      var i :| 0 <= i < |done| && f == Parent(done[i].target);
      assert names[|names| - 1 - i] in names;
    }
    forall n | n in names ensures DateFolder(dir, n, dateOf) in folders {
      var j :| 0 <= j < |names| && names[j] == n;
      RecordOfName(dir, names, dateOf, done, j);
    }
  }

  lemma RecordOfName(dir: Path, names: seq<string>, dateOf: string -> CalendarDate, done: seq<MoveRecord>, j: nat)
    requires |done| == |names| && j < |names|
    requires forall i | 0 <= i < |done| :: Parent(done[i].target) == DateFolder(dir, names[|names| - 1 - i], dateOf)
    ensures Parent(done[|names| - 1 - j].target) == DateFolder(dir, names[j], dateOf)
  {
  }

  /** Reversing records reverses their date folders. */
  lemma ReversedFolders(h: seq<MoveRecord>, done: seq<MoveRecord>, want: seq<Path>)
    requires |h| == |want| && |done| == |h|
    requires forall j | 0 <= j < |h| :: Parent(h[j].target) == want[j]
    requires forall i | 0 <= i < |done| :: done[i] == h[|h| - 1 - i]
    ensures forall i | 0 <= i < |done| :: Parent(done[i].target) == want[|want| - 1 - i]
  {
    forall i | 0 <= i < |done| ensures Parent(done[i].target) == want[|want| - 1 - i] {
      assert done[i] == h[|h| - 1 - i];
    }
  }

  /** The date folders of `names`, in order. */
  function DateFolders(dir: Path, names: seq<string>, dateOf: string -> CalendarDate): (r: seq<Path>)
    ensures |r| == |names|
    ensures forall j | 0 <= j < |names| :: r[j] == DateFolder(dir, names[j], dateOf)
  {
    seq(|names|, j requires 0 <= j < |names| => DateFolder(dir, names[j], dateOf))
  }

  /** The date folders of a plan, replayed backwards, are those of its names. */
  lemma PlanFolders(dir: Path, names: seq<string>, dateOf: string -> CalendarDate)
    ensures forall f :: f in Folders(Reverse(Plan(dir, names, dateOf))) <==>
      exists n | n in names :: f == DateFolder(dir, n, dateOf)
  {
    var h := Plan(dir, names, dateOf);
    var want := DateFolders(dir, names, dateOf);
    forall j | 0 <= j < |h| ensures Parent(h[j].target) == want[j] {
      PlanFolder(dir, names, dateOf, j);
    }
    ReversedFolders(h, Reverse(h), want);
    RecordFolders(dir, names, dateOf, Reverse(h), Folders(Reverse(h)));
  }

  /** The folders the cleanup visits after a clear run with nothing
      refused: the date folder of each candidate, each once. */
  lemma VisitOrder(dir: Path, names: seq<string>, dateOf: string -> CalendarDate)
    ensures var h := Plan(dir, Survivors(dir, names, {}), dateOf);
      var order := SortByLength(Folders(Reverse(h)));
      && Distinct(order)
      && forall f :: f in order <==> exists n | n in names :: f == DateFolder(dir, n, dateOf)
  {
    var s := Survivors(dir, names, {});
    var folders := Folders(Reverse(Plan(dir, s, dateOf)));
    var order := SortByLength(folders);
    DistinctPermutation(order, folders);
    PlanFolders(dir, s, dateOf);
    forall f ensures f in order <==> exists n | n in names :: f == DateFolder(dir, n, dateOf) {
      assert f in order <==> f in multiset(order);
      assert f in folders <==> f in multiset(folders);
    }
  }

  /** A prefix of a folder at most one component shorter is that folder
      or its parent. */
  lemma ChainFolder(c: Path, p: Path)
    requires 1 <= |c| - 1 <= |p| <= |c| && p == c[..|p|]
    ensures p == c || p == Parent(c)
  {
  }

  /** Agreeing prefixes agree on shorter prefixes. */
  lemma PrefixOfPrefix(a: Path, b: Path, i: nat)
    requires i <= |b| <= |a| && a[..|b|] == b
    ensures a[..i] == b[..i]
  {
    assert a[..i] == a[..|b|][..i];
  }

  /** A folder a clear run adds to a well-formed tree is a date folder of a
      candidate or the extension folder above one. */
  lemma FreshShape(fs: FS, fs1: FS, dir: Path, names: seq<string>, dateOf: string -> CalendarDate, p: Path)
    requires WellFormed(fs) && IsDir(fs, dir) && OrganizedFolders(fs, fs1, dir, names, dateOf)
    requires IsDir(fs1, p) && !IsDir(fs, p)
    ensures exists n | n in names :: p == DateFolder(dir, n, dateOf) || p == Parent(DateFolder(dir, n, dateOf))
  {
    var k :| 0 <= k < |names| && OnChain(p, dir, names[k], dateOf(names[k]));
    var c := DateFolder(dir, names[k], dateOf);
    assert p == c[..|p|];
    assert names[k] in names;
    if |p| <= |dir| {
      PrefixOfPrefix(c, dir, |p|);
      PrefixesOfFolder(fs, dir, |p|);
      assert false;
    } else {
      ChainFolder(c, p);
    }
  }

  /** In a well-formed tree whose files come back, whatever lies inside an
      added folder is an added folder. */
  lemma FreshInside(fs: FS, fs2: FS, p: Path, q: Path)
    requires WellFormed(fs) && Files(fs2) == Files(fs)
    requires Fresh(fs, fs2, p) && q in fs2 && InDir(q, p)
    ensures Fresh(fs, fs2, q)
  {
    assert Parent(q) == p;
  }

  /** The tree after organizing with nothing in the way and nothing
      refused, then moving every file back. */
  lemma ReplayedTree(fs: FS, dir: Path, names: seq<string>, dateOf: string -> CalendarDate)
    requires IsDir(fs, dir) && ClearRun(fs, dir, names, dateOf)
    ensures var run := Run(fs, dir, names, dateOf, {});
      var replay := Replay(run.0, Reverse(run.1), {});
      && run.1 == Plan(dir, Survivors(dir, names, {}), dateOf)
      && replay.1 == Reverse(run.1)
      && Files(replay.0) == Files(fs)
      && (forall p :: IsDir(replay.0, p) <==> IsDir(run.0, p))
      && DateFoldersExist(run.0, run.1)
      && OrganizedFolders(fs, run.0, dir, names, dateOf)
  {
    var run := Run(fs, dir, names, dateOf, {});
    ClearRunOrganized(fs, dir, names, dateOf, {});
    ClearRunReplays(fs, dir, names, dateOf, {});
    ClearRunUndoing(fs, dir, names, dateOf, {});
    ReplayFiles(run.0, Reverse(run.1), {});
    ReplayKeepsFolders(run.0, Reverse(run.1), {});
    RunDateFolders(fs, dir, names, dateOf, {});
  }

  /** After a run that recorded the whole plan, the date folder of every
      name exists. */
  lemma NamesFoldered(fs1: FS, dir: Path, names: seq<string>, dateOf: string -> CalendarDate, h: seq<MoveRecord>)
    requires h == Plan(dir, Survivors(dir, names, {}), dateOf) && DateFoldersExist(fs1, h)
    ensures forall n | n in names :: IsDir(fs1, DateFolder(dir, n, dateOf))
  {
    forall n | n in names ensures IsDir(fs1, DateFolder(dir, n, dateOf)) {
      PlanHasFolder(dir, Survivors(dir, names, {}), dateOf, n);
    }
  }

  /** Where an added folder lies, from facts about the trees and the
      order. */
  lemma FreshPlace(fs: FS, fs1: FS, fs2: FS, dir: Path, names: seq<string>, dateOf: string -> CalendarDate, order: seq<Path>, p: Path)
    requires WellFormed(fs) && IsDir(fs, dir)
    requires IsDir(fs2, p) <==> IsDir(fs1, p)
    requires OrganizedFolders(fs, fs1, dir, names, dateOf)
    requires forall f :: f in order <==> exists n | n in names :: f == DateFolder(dir, n, dateOf)
    requires Fresh(fs, fs2, p)
    ensures |p| == |dir| + 2 || |p| == |dir| + 1
    ensures |p| > |dir| && p[..|dir|] == dir
    ensures |p| == |dir| + 2 ==> p in order
    ensures |p| == |dir| + 1 ==> exists i | 0 <= i < |order| :: Parent(order[i]) == p
  {
    FreshShape(fs, fs1, dir, names, dateOf, p);
    var n :| n in names && (p == DateFolder(dir, n, dateOf) || p == Parent(DateFolder(dir, n, dateOf)));
    var c := DateFolder(dir, n, dateOf);
    assert c in order;
    if p != c {
      var i :| 0 <= i < |order| && order[i] == c;
      assert Parent(order[i]) == p;
    }
  }

  /** What the cleanup needs, from facts about the trees and the order. */
  lemma TidyFromFacts(fs: FS, fs1: FS, fs2: FS, dir: Path, names: seq<string>, dateOf: string -> CalendarDate, order: seq<Path>)
    requires WellFormed(fs) && IsDir(fs, dir) && Files(fs2) == Files(fs)
    requires forall p :: IsDir(fs2, p) <==> IsDir(fs1, p)
    requires OrganizedFolders(fs, fs1, dir, names, dateOf)
    requires forall n | n in names :: IsDir(fs1, DateFolder(dir, n, dateOf))
    requires Distinct(order)
    requires forall f :: f in order <==> exists n | n in names :: f == DateFolder(dir, n, dateOf)
    ensures Tidy(fs, fs2, order, |dir| + 2)
    ensures forall p | Fresh(fs, fs2, p) :: |p| > |dir| && p[..|dir|] == dir
  {
    forall i | 0 <= i < |order| ensures |order[i]| == |dir| + 2 && IsDir(fs2, order[i]) {
      assert order[i] in order;
    }
    forall p | Fresh(fs, fs2, p)
      ensures |p| == |dir| + 2 || |p| == |dir| + 1
      ensures |p| > |dir| && p[..|dir|] == dir
      ensures |p| == |dir| + 2 ==> p in order
      ensures |p| == |dir| + 1 ==> exists i | 0 <= i < |order| :: Parent(order[i]) == p
    {
      FreshPlace(fs, fs1, fs2, dir, names, dateOf, order, p);
    }
    forall p, q | Fresh(fs, fs2, p) && q in fs2 && InDir(q, p) ensures Fresh(fs, fs2, q) {
      FreshInside(fs, fs2, p, q);
    }
  }

  /** After a clear run with nothing refused and the replay, the cleanup
      order meets what the cleanup needs to remove every added folder. */
  lemma TidyAfterReplay(fs: FS, dir: Path, names: seq<string>, dateOf: string -> CalendarDate)
    requires WellFormed(fs) && IsDir(fs, dir) && ClearRun(fs, dir, names, dateOf)
    ensures var run := Run(fs, dir, names, dateOf, {});
      var replay := Replay(run.0, Reverse(run.1), {});
      var order := SortByLength(Folders(replay.1));
      && Tidy(fs, replay.0, order, |dir| + 2)
      && forall p | Fresh(fs, replay.0, p) :: |p| > |dir| && p[..|dir|] == dir
  {
    var run := Run(fs, dir, names, dateOf, {});
    var replay := Replay(run.0, Reverse(run.1), {});
    ReplayedTree(fs, dir, names, dateOf);
    VisitOrder(dir, names, dateOf);
    NamesFoldered(run.0, dir, names, dateOf, run.1);
    TidyFromFacts(fs, run.0, replay.0, dir, names, dateOf, SortByLength(Folders(replay.1)));
  }

  /** A cleanup that removes every added folder it should leaves none
      but one directly inside `dir` named `quirk`. */
  lemma CleanupLeaves(fs: FS, fs2: FS, dir: Path, order: seq<Path>, quirk: string)
    requires Tidy(fs, fs2, order, |dir| + 2)
    requires forall p | Fresh(fs, fs2, p) :: |p| > |dir| && p[..|dir|] == dir
    ensures var r := Cleanup(fs2, order, quirk, {}).0;
      forall p | IsDir(r, p) && !IsDir(fs, p) :: InDir(p, dir) && Basename(p) == quirk
  {
    var r := Cleanup(fs2, order, quirk, {}).0;
    FreshFoldersRemoved(fs, fs2, order, |dir| + 2, quirk);
    CleanupRemovesOnlyFolders(fs2, order, quirk, {});
    forall p | IsDir(r, p) && !IsDir(fs, p) ensures InDir(p, dir) && Basename(p) == quirk {
      assert p in r;
      assert Fresh(fs, fs2, p);
    }
  }

  /** The cleanup after a clear run with nothing refused leaves no added
      folder but one directly inside `dir` named `quirk`. */
  lemma ClearRunCleanup(fs: FS, dir: Path, names: seq<string>, dateOf: string -> CalendarDate, quirk: string)
    requires WellFormed(fs) && IsDir(fs, dir) && ClearRun(fs, dir, names, dateOf)
    ensures var run := Run(fs, dir, names, dateOf, {});
      var replay := Replay(run.0, Reverse(run.1), {});
      var r := Cleanup(replay.0, SortByLength(Folders(replay.1)), quirk, {}).0;
      forall p | IsDir(r, p) && !IsDir(fs, p) :: InDir(p, dir) && Basename(p) == quirk
  {
    var run := Run(fs, dir, names, dateOf, {});
    var replay := Replay(run.0, Reverse(run.1), {});
    TidyAfterReplay(fs, dir, names, dateOf);
    CleanupLeaves(fs, replay.0, dir, SortByLength(Folders(replay.1)), quirk);
  }

  /** Organizing a well-formed directory tree with nothing in the way and
      no move refused, then undoing with no move and no removal refused:
      every folder left afterwards was there before, except an extension
      folder directly inside the directory whose name is that of the first
      recorded file's date folder, which the extension-folder test
      compares against. */
  lemma OrganizeThenUndoFolders(s: Session, w: World, dir: Path, listing: seq<string>, dateOf: string -> CalendarDate)
    requires WellFormed(w.fs) && IsDir(w.fs, dir)
    requires ClearRun(w.fs, dir, Candidates(w.fs, dir, listing, s.excludes), dateOf)
    ensures var o := Organize.Organize(s, w, dir, listing, dateOf, {});
      var u := UndoLast(o.0, o.1, {}, {}).1;
      forall p | IsDir(u.fs, p) && !IsDir(w.fs, p) ::
        && InDir(p, dir)
        && o.0.history != []
        && Basename(p) == Basename(Parent(o.0.history[0].target))
  {
    var names := Candidates(w.fs, dir, listing, s.excludes);
    var run := Run(w.fs, dir, names, dateOf, {});
    var o := Organize.Organize(s, w, dir, listing, dateOf, {});
    assert o.0.history == run.1 && o.1.fs == run.0;
    ReplayedTree(w.fs, dir, names, dateOf);
    if run.1 != [] {
      var quirk := Basename(Parent(run.1[0].target));
      UndoSteps(o.0, o.1, {}, {});
      ClearRunCleanup(w.fs, dir, names, dateOf, quirk);
    }
  }
}

=== FILE: ledger.dfy ===
/** The state the organizer keeps between button presses — the module-level
    globals `last_moves` and `exclude_list` — together with the world an
    operation acts on: the filesystem and the append-only log file. */
module Ledger {
  import opened Wrappers
  import opened Paths
  import opened FileSystem
  import opened Selection

  /** One entry of `last_moves`: the tuple `(target_path, filepath)`. */
  datatype MoveRecord = MoveRecord(target: Path, original: Path)

  /** One line of the log file. The text of a caught exception is not
      modelled, so a failed removal renders without it. */
  datatype LogLine =
    | Moved(from: Path, to: Path)
    | Undone(from: Path, to: Path)
    | RemovedFolder(folder: Path)
    | RemovedExtensionFolder(folder: Path)
    | FailedRemove(folder: Path)

  function Render(line: LogLine): string
  {
    match line
    case Moved(a, b) => "Moved " + Text(a) + " -> " + Text(b)
    case Undone(a, b) => "Undo: " + Text(a) + " -> " + Text(b)
    case RemovedFolder(f) => "Removed empty folder: " + Text(f)
    case RemovedExtensionFolder(f) => "Removed empty extension folder: " + Text(f)
    case FailedRemove(f) => "Failed to remove folder " + Text(f) + ": "
  }

  /** `last_moves` and `exclude_list`. */
  datatype Session = Session(history: seq<MoveRecord>, excludes: set<string>)

  /** The filesystem and the lines written to the log so far. */
  datatype World = World(fs: FS, log: seq<LogLine>)

  /** `get_excludes`: the previous set is dropped and replaced by the parse
      of the dialog's answer; the history is untouched. */
  function GetExcludes(s: Session, answer: Option<string>): (r: Session)
    ensures r.history == s.history
    ensures r.excludes == ParseExcludes(answer)
    ensures answer.None? || answer == Some("") ==> r.excludes == {}
    ensures forall x | x in r.excludes :: ',' !in x
  {
    s.(excludes := ParseExcludes(answer))
  }

  /** The file map after performing `recs` in order, each moving the file
      at its `original` to its `target`. */
  function ApplyMoves(m: map<Path, string>, recs: seq<MoveRecord>): map<Path, string>
    decreases |recs|
  {
    if |recs| == 0 then m else ApplyMoves(MoveKey(m, recs[0].original, recs[0].target), recs[1..])
  }

  /** The records with source and destination exchanged: the moves that
      undo them. */
  function Inverse(recs: seq<MoveRecord>): (r: seq<MoveRecord>)
    ensures |r| == |recs|
    ensures forall i | 0 <= i < |recs| :: r[i] == MoveRecord(recs[i].original, recs[i].target)
  {
    seq(|recs|, i requires 0 <= i < |recs| => MoveRecord(recs[i].original, recs[i].target))
  }

  function Reverse<T>(s: seq<T>): (r: seq<T>)
    ensures |r| == |s|
    ensures forall i | 0 <= i < |s| :: r[i] == s[|s| - 1 - i]
  {
    seq(|s|, i requires 0 <= i < |s| => s[|s| - 1 - i])
  }

  /** The `Moved …` log lines of a list of moves. */
  function MovedLines(recs: seq<MoveRecord>): (r: seq<LogLine>)
    ensures |r| == |recs|
    ensures forall i | 0 <= i < |recs| :: r[i] == Moved(recs[i].original, recs[i].target)
  {
    seq(|recs|, i requires 0 <= i < |recs| => Moved(recs[i].original, recs[i].target))
  }
}

=== FILE: organize.dfy ===
/** `organizer`: reset the history, then for each candidate in listing
    order create its destination folders, move it, and on success record
    the move and log it. A failure skips that file and the run goes on. */
module Organize {
  import opened Wrappers
  import opened Paths
  import opened FileSystem
  import opened Classifier
  import opened Selection
  import opened Ledger
  import opened Seqs

  /** A date a file's creation time can fall on. */
  type CalendarDate = d: Date | ValidDate(d) witness Date(1970, 1, 1)

  /** The record organizing `name` produces when its move succeeds. */
  function Planned(dir: Path, name: string, date: CalendarDate): MoveRecord
  {
    MoveRecord(Destination(dir, name, date), Join(dir, name))
  }

  /** Every candidate moved, in processing order. */
  function Plan(dir: Path, names: seq<string>, dateOf: string -> CalendarDate): (r: seq<MoveRecord>)
    ensures |r| == |names|
    ensures forall i | 0 <= i < |names| :: r[i] == Planned(dir, names[i], dateOf(names[i]))
  {
    seq(|names|, i requires 0 <= i < |names| => Planned(dir, names[i], dateOf(names[i])))
  }

  /** `p` is one of the folders `makedirs` may create for `name`: a
      non-empty prefix of its destination folder. */
  predicate OnChain(p: Path, dir: Path, name: string, date: CalendarDate)
  {
    var c := Parent(Destination(dir, name, date));
    1 <= |p| <= |c| && p == c[..|p|]
  }

  /** One iteration of the move loop of `organizer` (FileOrganizer.py:26-42). The move succeeds exactly
      when the source is a regular file the platform lets go of, no folder
      of the destination chain exists as a regular file, and the destination
      is not a folder. It then moves one file and yields the planned record;
      otherwise no file moves. Either way only folders of the chain appear. */
  function Step(fs: FS, dir: Path, name: string, date: CalendarDate, failing: set<Path>): (r: (FS, Option<MoveRecord>))
    ensures var src := Join(dir, name); var dst := Destination(dir, name, date);
      r.1.Some? <==> IsFile(fs, src) && src !in failing && !PrefixIsFile(fs, Parent(dst)) && !IsDir(fs, dst)
    ensures r.1.Some? ==> r.1.value == Planned(dir, name, date) && IsDir(r.0, Parent(Destination(dir, name, date)))
    ensures r.1.Some? ==> Files(r.0) == MoveKey(Files(fs), Join(dir, name), Destination(dir, name, date))
    ensures r.1.None? ==> Files(r.0) == Files(fs)
    ensures forall p | IsDir(fs, p) :: IsDir(r.0, p)
    ensures forall p | IsDir(r.0, p) && !IsDir(fs, p) :: OnChain(p, dir, name, date)
  {
    var src := Join(dir, name);
    var dst := Destination(dir, name, date);
    var chain := Parent(dst);
    var (fs1, ok) := MakeDirs(fs, chain);
    MakeDirsEffect(fs, chain);
    assert IsFile(fs1, src) <==> IsFile(fs, src);
    assert IsDir(fs1, dst) <==> IsDir(fs, dst);
    assert ok ==> ParentExists(fs1, dst) by {
      if ok { assert chain[..|chain|] == chain; }
    }
    if !ok then (fs1, None)
    else
      match Move(fs1, src, dst, src in failing)
      case None => (fs1, None)
      case Some(fs2) =>
        MoveEffect(fs1, src, dst, src in failing);
        (fs2, Some(Planned(dir, name, date)))
  }

  /** `p` lies on the destination chain of one of `names`. */
  predicate OnSomeChain(p: Path, dir: Path, names: seq<string>, dateOf: string -> CalendarDate)
  {
    exists k | 0 <= k < |names| :: OnChain(p, dir, names[k], dateOf(names[k]))
  }

  lemma OnSomeChainCons(p: Path, dir: Path, names: seq<string>, dateOf: string -> CalendarDate)
    requires |names| > 0
    requires OnChain(p, dir, names[0], dateOf(names[0])) || OnSomeChain(p, dir, names[1..], dateOf)
    ensures OnSomeChain(p, dir, names, dateOf)
  {
    if !OnChain(p, dir, names[0], dateOf(names[0])) {
      var k :| 0 <= k < |names| - 1 && OnChain(p, dir, names[1..][k], dateOf(names[1..][k]));
      assert names[1..][k] == names[k + 1];
    }
  }

  lemma ApplyMovesCons(m: map<Path, string>, rec: MoveRecord, h: seq<MoveRecord>)
    ensures ApplyMoves(m, [rec] + h) == ApplyMoves(MoveKey(m, rec.original, rec.target), h)
  {
    assert ([rec] + h)[1..] == h;
  }

  lemma SubseqCons<T>(x: T, h: seq<T>, plan: seq<T>)
    requires |plan| > 0 && IsSubseq(h, plan[1..])
    ensures IsSubseq(h, plan)
    ensures x == plan[0] ==> IsSubseq([x] + h, plan)
  {
    assert ([x] + h)[1..] == h;
  }

  /** The move loop of `organizer` (FileOrganizer.py:26-42) over `names`: the filesystem afterwards and
      the records of the moves that succeeded. */
  function Run(fs: FS, dir: Path, names: seq<string>, dateOf: string -> CalendarDate, failing: set<Path>)
    : (r: (FS, seq<MoveRecord>))
    ensures |r.1| <= |names|
    decreases |names|
  {
    if |names| == 0 then (fs, [])
    else
      var st := Step(fs, dir, names[0], dateOf(names[0]), failing);
      var rest := Run(st.0, dir, names[1..], dateOf, failing);
      (rest.0, if st.1.Some? then [st.1.value] + rest.1 else rest.1)
  }

  lemma PlanTail(dir: Path, names: seq<string>, dateOf: string -> CalendarDate)
    requires |names| > 0
    ensures Plan(dir, names, dateOf) == [Planned(dir, names[0], dateOf(names[0]))] + Plan(dir, names[1..], dateOf)
  {
    var p := Plan(dir, names, dateOf);
    var q := Plan(dir, names[1..], dateOf);
    var r := [Planned(dir, names[0], dateOf(names[0]))] + q;
    assert |r| == |p|;
    forall i | 0 <= i < |p| ensures r[i] == p[i] {
      if i > 0 {
        assert r[i] == q[i - 1];
        assert names[1..][i - 1] == names[i];
      }
    }
  }

  /** The history is the plan with some files left out, in processing
      order. */
  lemma {:induction false} RunHistory(fs: FS, dir: Path, names: seq<string>, dateOf: string -> CalendarDate, failing: set<Path>)
    ensures IsSubseq(Run(fs, dir, names, dateOf, failing).1, Plan(dir, names, dateOf))
    decreases |names|
  {
    if |names| > 0 {
      var fs1 := Step(fs, dir, names[0], dateOf(names[0]), failing).0;
      var rec := Step(fs, dir, names[0], dateOf(names[0]), failing).1;
      var h := Run(fs1, dir, names[1..], dateOf, failing).1;
      RunHistory(fs1, dir, names[1..], dateOf, failing);
      PlanTail(dir, names, dateOf);
      SubseqCons(Planned(dir, names[0], dateOf(names[0])), h, Plan(dir, names, dateOf));
    }
  }

  /** No record is of a file in `failing`. */
  predicate NoneFailing(h: seq<MoveRecord>, failing: set<Path>)
  {
    forall i | 0 <= i < |h| :: h[i].original !in failing
  }

  /** A file whose move the platform refuses is never recorded. */
  lemma {:induction false} RunSkipsFailures(fs: FS, dir: Path, names: seq<string>, dateOf: string -> CalendarDate, failing: set<Path>)
    ensures NoneFailing(Run(fs, dir, names, dateOf, failing).1, failing)
    decreases |names|
  {
    if |names| > 0 {
      var fs1 := Step(fs, dir, names[0], dateOf(names[0]), failing).0;
      var rec := Step(fs, dir, names[0], dateOf(names[0]), failing).1;
      var h := Run(fs1, dir, names[1..], dateOf, failing).1;
      var hist := Run(fs, dir, names, dateOf, failing).1;
      RunSkipsFailures(fs1, dir, names[1..], dateOf, failing);
      if rec.Some? {
        assert hist == [rec.value] + h;
        assert rec.value.original !in failing;
        forall i | 0 <= i < |hist| ensures hist[i].original !in failing {
          if i > 0 {
            assert hist[i] == h[i - 1];
          }
        }
      } else {
        assert hist == h;
      }
    }
  }

  /** The files end up exactly as performing the recorded moves in order
      leaves them. */
  lemma {:induction false} RunFiles(fs: FS, dir: Path, names: seq<string>, dateOf: string -> CalendarDate, failing: set<Path>)
    ensures var r := Run(fs, dir, names, dateOf, failing);
      Files(r.0) == ApplyMoves(Files(fs), r.1)
    decreases |names|
  {
    if |names| > 0 {
      var fs1 := Step(fs, dir, names[0], dateOf(names[0]), failing).0;
      var rec := Step(fs, dir, names[0], dateOf(names[0]), failing).1;
      var h := Run(fs1, dir, names[1..], dateOf, failing).1;
      RunFiles(fs1, dir, names[1..], dateOf, failing);
      ApplyMovesCons(Files(fs), Planned(dir, names[0], dateOf(names[0])), h);
    }
  }

  /** No folder disappears, and every new one lies on the destination
      chain of some candidate. */
  lemma {:induction false} RunFolders(fs: FS, dir: Path, names: seq<string>, dateOf: string -> CalendarDate, failing: set<Path>)
    ensures var fs' := Run(fs, dir, names, dateOf, failing).0;
      && (forall p | IsDir(fs, p) :: IsDir(fs', p))
      && (forall p | IsDir(fs', p) && !IsDir(fs, p) :: OnSomeChain(p, dir, names, dateOf))
    decreases |names|
  {
    if |names| > 0 {
      var fs1 := Step(fs, dir, names[0], dateOf(names[0]), failing).0;
      var rec := Step(fs, dir, names[0], dateOf(names[0]), failing).1;
      var fs2 := Run(fs1, dir, names[1..], dateOf, failing).0;
      RunFolders(fs1, dir, names[1..], dateOf, failing);
      forall p | IsDir(fs2, p) && !IsDir(fs, p) ensures OnSomeChain(p, dir, names, dateOf) {
        OnSomeChainCons(p, dir, names, dateOf);
      }
    }
  }

  /** `organizer(directory)` on a session whose exclusion set was chosen
      before: the candidates are selected from a listing of the directory,
      the previous history is discarded, and the new history holds the
      planned records of exactly the files moved, in order, each logged. */
  function Organize(s: Session, w: World, dir: Path, listing: seq<string>,
                    dateOf: string -> CalendarDate, failing: set<Path>): (r: (Session, World))
    ensures r.0.excludes == s.excludes
    ensures IsSubseq(r.0.history, Plan(dir, Candidates(w.fs, dir, listing, s.excludes), dateOf))
    ensures Files(r.1.fs) == ApplyMoves(Files(w.fs), r.0.history)
    ensures r.1.log == w.log + MovedLines(r.0.history)
  {
    var names := Candidates(w.fs, dir, listing, s.excludes);
    var run := Run(w.fs, dir, names, dateOf, failing);
    RunHistory(w.fs, dir, names, dateOf, failing);
    RunFiles(w.fs, dir, names, dateOf, failing);
    (Session(run.1, s.excludes), World(run.0, w.log + MovedLines(run.1)))
  }
}

module OrganizeComplete {
  import opened Paths
  import opened FileSystem
  import opened Classifier
  import opened Seqs
  import opened Organize

  /** Nothing stands in the way of organizing `name`: it is a regular file,
      no folder of its destination chain exists as a regular file, and its
      destination does not exist yet. */
  predicate Unobstructed(fs: FS, dir: Path, name: string, date: CalendarDate)
  {
    var dst := Destination(dir, name, date);
    IsFile(fs, Join(dir, name)) && !PrefixIsFile(fs, Parent(dst)) && dst !in fs
  }

  predicate ClearRun(fs: FS, dir: Path, names: seq<string>, dateOf: string -> CalendarDate)
  {
    Distinct(names) && forall k | 0 <= k < |names| :: Unobstructed(fs, dir, names[k], dateOf(names[k]))
  }

  /** The names whose move the platform does not refuse, in order. */
  function Survivors(dir: Path, names: seq<string>, failing: set<Path>): (r: seq<string>)
    ensures forall n :: n in r <==> n in names && Join(dir, n) !in failing
  {
    if |names| == 0 then []
    else (if Join(dir, names[0]) !in failing then [names[0]] else []) + Survivors(dir, names[1..], failing)
  }

  /** Organizing one file does not get in the way of another. */
  lemma StepKeepsUnobstructed(fs: FS, dir: Path, n0: string, d0: CalendarDate, n: string, d: CalendarDate, failing: set<Path>)
    requires Unobstructed(fs, dir, n0, d0) && Unobstructed(fs, dir, n, d) && n != n0
    ensures Unobstructed(Step(fs, dir, n0, d0, failing).0, dir, n, d)
  {
    var st := Step(fs, dir, n0, d0, failing);
    var fs1 := st.0;
    var src0, dst0 := Join(dir, n0), Destination(dir, n0, d0);
    var src, dst := Join(dir, n), Destination(dir, n, d);
    var chain := Parent(dst);
    assert Files(fs1) == MoveKey(Files(fs), src0, dst0) || Files(fs1) == Files(fs);
    assert src != src0 by { assert src[|dir|] == n && src0[|dir|] == n0; }
    assert src in Files(fs);
    assert IsFile(fs1, src) by { assert src in Files(fs1); }
    forall i | 1 <= i <= |chain| ensures !IsFile(fs1, chain[..i]) {
      assert !IsFile(fs, chain[..i]);
      assert chain[..i] != dst0 by { assert |chain[..i]| < |dst0|; }
      assert chain[..i] !in Files(fs1);
    }
    assert dst != dst0 by { assert dst[|dir| + 2] == n && dst0[|dir| + 2] == n0; }
    assert dst !in Files(fs1);
    assert !OnChain(dst, dir, n0, d0);
    assert !IsDir(fs1, dst);
  }

  lemma {:induction false} StepKeepsClear(fs: FS, dir: Path, names: seq<string>, dateOf: string -> CalendarDate, failing: set<Path>)
    requires |names| > 0 && ClearRun(fs, dir, names, dateOf)
    ensures ClearRun(Step(fs, dir, names[0], dateOf(names[0]), failing).0, dir, names[1..], dateOf)
  {
    var fs1 := Step(fs, dir, names[0], dateOf(names[0]), failing).0;
    var tail := names[1..];
    forall k | 0 <= k < |tail| ensures Unobstructed(fs1, dir, tail[k], dateOf(tail[k])) {
      assert tail[k] == names[k + 1];
      StepKeepsUnobstructed(fs, dir, names[0], dateOf(names[0]), tail[k], dateOf(tail[k]), failing);
    }
    assert Distinct(tail) by {
      forall i, j | 0 <= i < j < |tail| ensures tail[i] != tail[j] {
        assert tail[i] == names[i + 1] && tail[j] == names[j + 1];
      }
    }
  }

  /** When nothing stands in the way, exactly the files the platform lets
      go of are moved, and the history is their plan, in order: a failure
      skips that one file and the run goes on with the rest. */
  lemma {:induction false} RunComplete(fs: FS, dir: Path, names: seq<string>, dateOf: string -> CalendarDate, failing: set<Path>)
    requires ClearRun(fs, dir, names, dateOf)
    ensures Run(fs, dir, names, dateOf, failing).1 == Plan(dir, Survivors(dir, names, failing), dateOf)
    decreases |names|
  {
    if |names| > 0 {
      var n0 := names[0];
      var st := Step(fs, dir, n0, dateOf(n0), failing);
      var h := Run(st.0, dir, names[1..], dateOf, failing).1;
      assert Run(fs, dir, names, dateOf, failing).1 == (if st.1.Some? then [st.1.value] + h else h);
      assert Unobstructed(fs, dir, n0, dateOf(n0));
      assert st.1.Some? <==> Join(dir, n0) !in failing;
      StepKeepsClear(fs, dir, names, dateOf, failing);
      RunComplete(st.0, dir, names[1..], dateOf, failing);
      var s := Survivors(dir, names, failing);
      var t := Survivors(dir, names[1..], failing);
      if Join(dir, n0) !in failing {
        assert s == [n0] + t;
        PlanTail(dir, s, dateOf);
        assert s[1..] == t;
      } else {
        assert s == t;
      }
    }
  }
}

=== FILE: paths.dfy ===
/** Paths as sequences of name components, and the handful of `os.path`
    operations the organizer uses on them: `join`, `dirname`, `basename`,
    and the rendered string whose length orders the cleanup pass. */
module Paths {

  /** An absolute POSIX path, one string per component: `/home/u/docs`
      is `["home", "u", "docs"]` and the root `/` is `[]`. */
  type Path = seq<string>

  /** `os.path.join(p, name)` for a plain component name. */
  function Join(p: Path, name: string): (r: Path)
    ensures |r| == |p| + 1 && r[..|p|] == p && r[|p|] == name
  {
    p + [name]
  }

  /** `os.path.dirname`: the path without its last component; the root is
      its own dirname. */
  function Parent(p: Path): (r: Path)
    ensures |p| > 0 ==> |r| == |p| - 1 && p == r + [p[|p| - 1]]
    ensures |p| == 0 ==> r == []
  {
    if |p| == 0 then [] else p[..|p| - 1]
  }

  /** `os.path.basename`: the last component, empty for the root. */
  function Basename(p: Path): (r: string)
    ensures |p| > 0 ==> Parent(p) + [r] == p
  {
    if |p| == 0 then "" else p[|p| - 1]
  }

  lemma ParentOfJoin(p: Path, name: string)
    ensures Parent(Join(p, name)) == p && Basename(Join(p, name)) == name
  {
    assert Join(p, name)[..|p|] == p;
  }

  /** The path as the string Python sees: `/` before every component. */
  function Text(p: Path): string
  {
    if |p| == 0 then "" else Text(p[..|p| - 1]) + "/" + p[|p| - 1]
  }

  /** `len(str(p))`, counted without building the string. */
  function Length(p: Path): (r: nat)
    ensures r == |Text(p)|
  {
    if |p| == 0 then 0 else Length(p[..|p| - 1]) + 1 + |p[|p| - 1]|
  }
}

=== FILE: roundtrip.dfy ===
/** Organize followed by undo: when nothing stands in the way, every file
    the organizer moved is moved back, and the files of the tree are exactly
    what they were before. */
module RoundTrip {
  import opened Paths
  import opened FileSystem
  import opened Classifier
  import opened Selection
  import opened Ledger
  import opened Organize
  import opened OrganizeComplete
  import opened Undo
  import opened Seqs

  /** The moves can be performed one after the other on `m`: their paths
      are separated, every file to move is there, and no destination is
      taken. */
  ghost predicate Movable(m: map<Path, string>, recs: seq<MoveRecord>)
  {
    && Separated(recs)
    && forall i | 0 <= i < |recs| :: recs[i].original in m && recs[i].target !in m
  }

  lemma MovableTail(m: map<Path, string>, recs: seq<MoveRecord>)
    requires |recs| > 0 && Movable(m, recs)
    ensures Movable(MoveKey(m, recs[0].original, recs[0].target), recs[1..])
  {
    SeparatedTail(recs);
    var r0 := recs[0];
    var tail := recs[1..];
    forall i | 0 <= i < |tail|
      ensures tail[i].original in MoveKey(m, r0.original, r0.target)
      ensures tail[i].target !in MoveKey(m, r0.original, r0.target)
    {
      assert tail[i] == recs[i + 1];
      assert tail[i].original != r0.original && tail[i].original != r0.target;
      assert tail[i].target != r0.target;
    }
  }

  /** Performing movable moves: each file lands at its target and every
      original is vacated. */
  lemma {:induction false} ApplyMovesLanded(m: map<Path, string>, recs: seq<MoveRecord>)
    requires Movable(m, recs)
    ensures var m' := ApplyMoves(m, recs);
      && (forall i | 0 <= i < |recs| :: recs[i].target in m' && m'[recs[i].target] == m[recs[i].original])
      && (forall i | 0 <= i < |recs| :: recs[i].original !in m')
    decreases |recs|
  {
    if |recs| > 0 {
      var r0 := recs[0];
      var tail := recs[1..];
      var m1 := MoveKey(m, r0.original, r0.target);
      MovableTail(m, recs);
      ApplyMovesLanded(m1, tail);
      ApplyMovesFrame(m1, tail);
      var m' := ApplyMoves(m, recs);
      assert m' == ApplyMoves(m1, tail);
      forall i | 0 <= i < |recs|
        ensures recs[i].target in m' && m'[recs[i].target] == m[recs[i].original]
        ensures recs[i].original !in m'
      {
        if i == 0 {
          forall k | 0 <= k < |tail| ensures r0.target != tail[k].original {
            assert tail[k] == recs[k + 1];
          }
        } else {
          assert recs[i] == tail[i - 1];
        }
      }
    }
  }

  /** Performing movable moves: every file not moved stays, and nothing
      appears except at a target. */
  lemma {:induction false} ApplyMovesFrame(m: map<Path, string>, recs: seq<MoveRecord>)
    requires Movable(m, recs)
    ensures var m' := ApplyMoves(m, recs);
      && (forall q | q in m && (forall i | 0 <= i < |recs| :: q != recs[i].original) :: q in m' && m'[q] == m[q])
      && (forall q | q in m' :: q in m || exists i | 0 <= i < |recs| :: q == recs[i].target)
    decreases |recs|
  {
    if |recs| > 0 {
      var r0 := recs[0];
      var tail := recs[1..];
      var m1 := MoveKey(m, r0.original, r0.target);
      MovableTail(m, recs);
      ApplyMovesFrame(m1, tail);
      var m' := ApplyMoves(m, recs);
      assert m' == ApplyMoves(m1, tail);
      forall q | q in m && (forall i | 0 <= i < |recs| :: q != recs[i].original)
        ensures q in m' && m'[q] == m[q]
      {
        assert q != r0.original && q != r0.target;
        forall k | 0 <= k < |tail| ensures q != tail[k].original {
          assert tail[k] == recs[k + 1];
        }
      }
      forall q | q in m' ensures q in m || exists i | 0 <= i < |recs| :: q == recs[i].target {
        if q !in m1 {
          var k :| 0 <= k < |tail| && q == tail[k].target;
          assert q == recs[k + 1].target;
        } else if q !in m {
          assert q == recs[0].target;
        }
      }
    }
  }

  /** All four facts about performing movable moves. */
  lemma ApplyMovesFacts(m: map<Path, string>, recs: seq<MoveRecord>)
    requires Movable(m, recs)
    ensures var m' := ApplyMoves(m, recs);
      && (forall i | 0 <= i < |recs| :: recs[i].target in m' && m'[recs[i].target] == m[recs[i].original])
      && (forall i | 0 <= i < |recs| :: recs[i].original !in m')
      && (forall q | q in m && (forall i | 0 <= i < |recs| :: q != recs[i].original) :: q in m' && m'[q] == m[q])
      && (forall q | q in m' :: q in m || exists i | 0 <= i < |recs| :: q == recs[i].target)
  {
    ApplyMovesLanded(m, recs);
    ApplyMovesFrame(m, recs);
  }

  /** The moves that undo `recs`, in the order undo performs them. */
  function Undoing(recs: seq<MoveRecord>): (r: seq<MoveRecord>)
    ensures |r| == |recs|
    ensures forall i | 0 <= i < |recs| ::
      r[i] == MoveRecord(recs[|recs| - 1 - i].original, recs[|recs| - 1 - i].target)
  {
    Inverse(Reverse(recs))
  }

  lemma UndoingSeparated(recs: seq<MoveRecord>)
    requires Separated(recs)
    ensures Separated(Undoing(recs))
  {
    var u := Undoing(recs);
    var n := |recs|;
    forall i, j | 0 <= i < n && 0 <= j < n
      ensures && (i != j ==> u[i].target != u[j].target && u[i].original != u[j].original)
              && u[i].target != u[j].original
    {
      assert u[i] == MoveRecord(recs[n - 1 - i].original, recs[n - 1 - i].target);
      assert u[j] == MoveRecord(recs[n - 1 - j].original, recs[n - 1 - j].target);
    }
  }

  /** After movable moves, the moves undoing them are movable in turn. */
  lemma UndoingMovable(m: map<Path, string>, recs: seq<MoveRecord>)
    requires Movable(m, recs)
    ensures Movable(ApplyMoves(m, recs), Undoing(recs))
  {
    var g := ApplyMoves(m, recs);
    var u := Undoing(recs);
    var n := |recs|;
    ApplyMovesFacts(m, recs);
    UndoingSeparated(recs);
    forall i | 0 <= i < n ensures u[i].original in g && u[i].target !in g {
      assert u[i] == MoveRecord(recs[n - 1 - i].original, recs[n - 1 - i].target);
    }
  }

  /** A moved file is back in its place after undoing. */
  lemma UndoingRestoresMoved(m: map<Path, string>, recs: seq<MoveRecord>, i: nat)
    requires Movable(m, recs) && i < |recs|
    ensures var h := ApplyMoves(ApplyMoves(m, recs), Undoing(recs));
      recs[i].original in h && h[recs[i].original] == m[recs[i].original]
  {
    var g := ApplyMoves(m, recs);
    var u := Undoing(recs);
    UndoingMovable(m, recs);
    ApplyMovesLanded(m, recs);
    ApplyMovesLanded(g, u);
    assert u[|recs| - 1 - i] == MoveRecord(recs[i].original, recs[i].target);
  }

  /** A file no record moves is still in its place after undoing. */
  lemma UndoingKeepsUnmoved(m: map<Path, string>, recs: seq<MoveRecord>, q: Path)
    requires Movable(m, recs) && q in m
    requires forall i | 0 <= i < |recs| :: q != recs[i].original
    ensures var h := ApplyMoves(ApplyMoves(m, recs), Undoing(recs));
      q in h && h[q] == m[q]
  {
    var g := ApplyMoves(m, recs);
    var u := Undoing(recs);
    var n := |recs|;
    UndoingMovable(m, recs);
    assert q in g && g[q] == m[q] by {
      ApplyMovesFrame(m, recs);
    }
    forall k | 0 <= k < n ensures q != u[k].original {
      assert u[k] == MoveRecord(recs[n - 1 - k].original, recs[n - 1 - k].target);
    }
    ApplyMovesFrame(g, u);
  }

  /** Every file is back in its place after undoing. */
  lemma UndoingRestoresEach(m: map<Path, string>, recs: seq<MoveRecord>, q: Path)
    requires Movable(m, recs) && q in m
    ensures var h := ApplyMoves(ApplyMoves(m, recs), Undoing(recs));
      q in h && h[q] == m[q]
  {
    if i :| 0 <= i < |recs| && q == recs[i].original {
      UndoingRestoresMoved(m, recs, i);
    } else {
      UndoingKeepsUnmoved(m, recs, q);
    }
  }

  /** Nothing is left anywhere else after undoing. */
  lemma UndoingLeavesNoOther(m: map<Path, string>, recs: seq<MoveRecord>, q: Path)
    requires Movable(m, recs)
    requires q in ApplyMoves(ApplyMoves(m, recs), Undoing(recs))
    ensures q in m
  {
    var g := ApplyMoves(m, recs);
    var u := Undoing(recs);
    var n := |recs|;
    UndoingMovable(m, recs);
    assert q in g || exists k | 0 <= k < n :: q == u[k].target by {
      ApplyMovesFrame(g, u);
    }
    if q !in g {
      var k :| 0 <= k < n && q == u[k].target;
      assert u[k] == MoveRecord(recs[n - 1 - k].original, recs[n - 1 - k].target);
    } else {
      forall i | 0 <= i < n ensures q != recs[i].target {
        ApplyMovesLanded(g, u);
        assert u[n - 1 - i].original == recs[i].target;
      }
      ApplyMovesFrame(m, recs);
    }
  }

  /** Undoing movable moves restores the file map exactly. */
  lemma MovesThenUndoing(m: map<Path, string>, recs: seq<MoveRecord>)
    requires Movable(m, recs)
    ensures ApplyMoves(ApplyMoves(m, recs), Undoing(recs)) == m
  {
    var h := ApplyMoves(ApplyMoves(m, recs), Undoing(recs));
    forall q | q in m ensures q in h && h[q] == m[q] {
      UndoingRestoresEach(m, recs, q);
    }
    forall q | q in h ensures q in m {
      UndoingLeavesNoOther(m, recs, q);
    }
  }

  lemma {:induction false} SurvivorsDistinct(dir: Path, names: seq<string>, failing: set<Path>)
    requires Distinct(names)
    ensures Distinct(Survivors(dir, names, failing))
  {
    if |names| > 0 {
      var tail := names[1..];
      assert Distinct(tail) by {
        forall i, j | 0 <= i < j < |tail| ensures tail[i] != tail[j] {
          assert tail[i] == names[i + 1] && tail[j] == names[j + 1];
        }
      }
      SurvivorsDistinct(dir, tail, failing);
      assert names[0] !in tail by {
        forall k | 0 <= k < |tail| ensures tail[k] != names[0] {
          assert tail[k] == names[k + 1];
        }
      }
      assert names[0] !in Survivors(dir, tail, failing);
    }
  }

  /** The plan of distinct names moves distinct files to distinct places,
      none of them the place of a file it moves. */
  lemma PlanSeparated(dir: Path, names: seq<string>, dateOf: string -> CalendarDate)
    requires Distinct(names)
    ensures Separated(Plan(dir, names, dateOf))
  {
    var h := Plan(dir, names, dateOf);
    forall i, j | 0 <= i < |h| && 0 <= j < |h|
      ensures && (i != j ==> h[i].target != h[j].target && h[i].original != h[j].original)
              && h[i].target != h[j].original
    {
      DestinationSeparates(dir, names[i], dateOf(names[i]), names[j], dateOf(names[j]));
      if i != j {
        assert names[i] != names[j];
        assert Join(dir, names[i])[|dir|] != Join(dir, names[j])[|dir|];
      }
    }
  }

  /** No original file is one of the folders organizing creates. */
  lemma OriginalOffChains(fs: FS, dir: Path, names: seq<string>, dateOf: string -> CalendarDate, n: string)
    requires ClearRun(fs, dir, names, dateOf) && IsFile(fs, Join(dir, n))
    ensures !OnSomeChain(Join(dir, n), dir, names, dateOf)
  {
    var p := Join(dir, n);
    forall k | 0 <= k < |names| ensures !OnChain(p, dir, names[k], dateOf(names[k])) {
      var c := Parent(Destination(dir, names[k], dateOf(names[k])));
      assert Unobstructed(fs, dir, names[k], dateOf(names[k]));
      assert !IsFile(fs, c[..|p|]);
      assert p != c[..|p|];
    }
  }

  /** With nothing in the way, the plan of the surviving candidates is
      movable on the files before organizing. */
  lemma PlanMovable(fs: FS, dir: Path, names: seq<string>, dateOf: string -> CalendarDate, failing: set<Path>)
    requires ClearRun(fs, dir, names, dateOf)
    ensures Movable(Files(fs), Plan(dir, Survivors(dir, names, failing), dateOf))
  {
    var s := Survivors(dir, names, failing);
    var h := Plan(dir, s, dateOf);
    SurvivorsDistinct(dir, names, failing);
    PlanSeparated(dir, s, dateOf);
    forall i | 0 <= i < |h| ensures h[i].original in Files(fs) && h[i].target !in Files(fs) {
      assert s[i] in names;
      var k :| 0 <= k < |names| && names[k] == s[i];
      assert Unobstructed(fs, dir, names[k], dateOf(names[k]));
    }
  }

  /** The history and files a clear run leaves: `h` is the plan of the
      candidates the platform let go of, and the files are as those moves
      leave them. */
  ghost predicate OrganizedFiles(fs: FS, fs1: FS, h: seq<MoveRecord>, dir: Path, names: seq<string>,
                                 dateOf: string -> CalendarDate, failing: set<Path>)
  {
    && h == Plan(dir, Survivors(dir, names, failing), dateOf)
    && Files(fs1) == ApplyMoves(Files(fs), h)
  }

  /** The folders a run leaves: every old one, and new ones only on the
      destination chains of the candidates. */
  ghost predicate OrganizedFolders(fs: FS, fs1: FS, dir: Path, names: seq<string>, dateOf: string -> CalendarDate)
  {
    && (forall p | IsDir(fs, p) :: IsDir(fs1, p))
    && (forall p | IsDir(fs1, p) && !IsDir(fs, p) :: OnSomeChain(p, dir, names, dateOf))
  }

  lemma ClearRunOrganized(fs: FS, dir: Path, names: seq<string>, dateOf: string -> CalendarDate, failing: set<Path>)
    requires ClearRun(fs, dir, names, dateOf)
    ensures var r := Run(fs, dir, names, dateOf, failing);
      OrganizedFiles(fs, r.0, r.1, dir, names, dateOf, failing) && OrganizedFolders(fs, r.0, dir, names, dateOf)
  {
    RunComplete(fs, dir, names, dateOf, failing);
    RunFiles(fs, dir, names, dateOf, failing);
    RunFolders(fs, dir, names, dateOf, failing);
  }

  /** After a clear run no original place of a candidate is a folder. */
  lemma OriginalsNotFolders(fs: FS, fs1: FS, dir: Path, names: seq<string>, dateOf: string -> CalendarDate)
    requires OrganizedFolders(fs, fs1, dir, names, dateOf)
    requires ClearRun(fs, dir, names, dateOf)
    ensures forall n | n in names :: !IsDir(fs1, Join(dir, n))
  {
    forall n | n in names ensures !IsDir(fs1, Join(dir, n)) {
      assert IsFile(fs, Join(dir, n)) by {
        var k :| 0 <= k < |names| && names[k] == n;
        assert Unobstructed(fs, dir, names[k], dateOf(names[k]));
      }
      OriginalOffChains(fs, dir, names, dateOf, n);
    }
  }

  /** After a clear run, every recorded file is at its target. */
  lemma OrganizedTargets(fs: FS, fs1: FS, h: seq<MoveRecord>, dir: Path, names: seq<string>,
                         dateOf: string -> CalendarDate, failing: set<Path>)
    requires OrganizedFiles(fs, fs1, h, dir, names, dateOf, failing)
    requires ClearRun(fs, dir, names, dateOf)
    ensures forall i | 0 <= i < |h| :: h[i].target in Files(fs1)
  {
    PlanMovable(fs, dir, names, dateOf, failing);
    ApplyMovesFacts(Files(fs), h);
  }

  /** Each record of `h` is the plan of one of `names`. */
  ghost predicate PlannedFrom(h: seq<MoveRecord>, dir: Path, names: seq<string>, dateOf: string -> CalendarDate)
  {
    forall j | 0 <= j < |h| :: exists n | n in names :: h[j] == Planned(dir, n, dateOf(n))
  }

  lemma SurvivorsPlannedFrom(dir: Path, names: seq<string>, dateOf: string -> CalendarDate, failing: set<Path>)
    ensures PlannedFrom(Plan(dir, Survivors(dir, names, failing), dateOf), dir, names, dateOf)
  {
    var s := Survivors(dir, names, failing);
    var h := Plan(dir, s, dateOf);
    forall j | 0 <= j < |h| ensures exists n | n in names :: h[j] == Planned(dir, n, dateOf(n)) {
      assert s[j] in names && h[j] == Planned(dir, s[j], dateOf(s[j]));
    }
  }

  /** Records planned from `names`, each file at its target, no original
      place a folder: every record can be moved back. */
  lemma PlannedRestorable(fs1: FS, h: seq<MoveRecord>, dir: Path, names: seq<string>,
                            dateOf: string -> CalendarDate)
    requires PlannedFrom(h, dir, names, dateOf)
    requires forall i | 0 <= i < |h| :: h[i].target in Files(fs1)
    requires forall n | n in names :: !IsDir(fs1, Join(dir, n))
    requires IsDir(fs1, dir)
    ensures Restorable(fs1, h)
  {
    forall j | 0 <= j < |h|
      ensures IsFile(fs1, h[j].target) && !IsDir(fs1, h[j].original) && ParentExists(fs1, h[j].original)
    {
      assert exists n | n in names :: h[j] == Planned(dir, n, dateOf(n));
      var name :| name in names && h[j] == Planned(dir, name, dateOf(name));
      ParentOfJoin(dir, name);
    }
  }

  /** After an unobstructed organize, every recorded file is at its target,
      its original place is no folder, and that place's folder exists: every
      record can be moved back. */
  lemma OrganizedRestorable(fs: FS, dir: Path, names: seq<string>, dateOf: string -> CalendarDate, failing: set<Path>)
    requires IsDir(fs, dir) && ClearRun(fs, dir, names, dateOf)
    ensures var r := Run(fs, dir, names, dateOf, failing);
      Restorable(r.0, r.1)
  {
    var r := Run(fs, dir, names, dateOf, failing);
    ClearRunOrganized(fs, dir, names, dateOf, failing);
    OrganizedTargets(fs, r.0, r.1, dir, names, dateOf, failing);
    SurvivorsPlannedFrom(dir, names, dateOf, failing);
    OriginalsNotFolders(fs, r.0, dir, names, dateOf);
    PlannedRestorable(r.0, r.1, dir, names, dateOf);
  }

  /** Replaying in any order finds the same files in place. */
  lemma ReverseRestorable(fs: FS, h: seq<MoveRecord>)
    requires Restorable(fs, h)
    ensures Restorable(fs, Reverse(h))
  {
    var back := Reverse(h);
    var n := |h|;
    forall i | 0 <= i < n
      ensures IsFile(fs, back[i].target) && !IsDir(fs, back[i].original) && ParentExists(fs, back[i].original)
    {
      assert back[i] == h[n - 1 - i];
    }
  }

  lemma ReverseSeparated(recs: seq<MoveRecord>)
    requires Separated(recs)
    ensures Separated(Reverse(recs))
  {
    var b := Reverse(recs);
    var n := |recs|;
    forall i, j | 0 <= i < n && 0 <= j < n
      ensures && (i != j ==> b[i].target != b[j].target && b[i].original != b[j].original)
              && b[i].target != b[j].original
    {
      assert b[i] == recs[n - 1 - i] && b[j] == recs[n - 1 - j];
    }
  }

  /** After a clear run, replaying the history backwards with no refusal
      moves every recorded file back. */
  lemma ClearRunReplays(fs: FS, dir: Path, names: seq<string>, dateOf: string -> CalendarDate, failing: set<Path>)
    requires IsDir(fs, dir) && ClearRun(fs, dir, names, dateOf)
    ensures var r := Run(fs, dir, names, dateOf, failing);
      Replay(r.0, Reverse(r.1), {}).1 == Reverse(r.1)
  {
    var r := Run(fs, dir, names, dateOf, failing);
    var h := r.1;
    OrganizedRestorable(fs, dir, names, dateOf, failing);
    ReverseRestorable(r.0, h);
    assert Separated(h) by {
      RunComplete(fs, dir, names, dateOf, failing);
      PlanMovable(fs, dir, names, dateOf, failing);
    }
    ReverseSeparated(h);
    ReplayComplete(r.0, Reverse(h));
  }

  /** After a clear run, undoing the recorded moves restores the files. */
  lemma ClearRunUndoing(fs: FS, dir: Path, names: seq<string>, dateOf: string -> CalendarDate, failing: set<Path>)
    requires ClearRun(fs, dir, names, dateOf)
    ensures var r := Run(fs, dir, names, dateOf, failing);
      ApplyMoves(Files(r.0), Inverse(Reverse(r.1))) == Files(fs)
  {
    var r := Run(fs, dir, names, dateOf, failing);
    RunComplete(fs, dir, names, dateOf, failing);
    RunFiles(fs, dir, names, dateOf, failing);
    PlanMovable(fs, dir, names, dateOf, failing);
    MovesThenUndoing(Files(fs), r.1);
  }

  /** Organizing a directory and then undoing, with nothing in the way and
      no move back refused: the organizer records exactly the candidates
      whose move the platform allowed, undo moves every one of them back,
      the history ends empty, and every file of the tree is where it was
      with the contents it had. Which folders remain afterwards is stated by
      `FolderRoundTrip.OrganizeThenUndoFolders`. */
  lemma OrganizeThenUndo(s: Session, w: World, dir: Path, listing: seq<string>,
                         dateOf: string -> CalendarDate, failing: set<Path>, rmFailing: set<Path>)
    requires IsDir(w.fs, dir)
    requires ClearRun(w.fs, dir, Candidates(w.fs, dir, listing, s.excludes), dateOf)
    ensures var o := Organize.Organize(s, w, dir, listing, dateOf, failing);
      var u := UndoLast(o.0, o.1, {}, rmFailing);
      && o.0.history == Plan(dir, Survivors(dir, Candidates(w.fs, dir, listing, s.excludes), failing), dateOf)
      && Restored(o.0, o.1, {}) == Reverse(o.0.history)
      && u.0.history == []
      && Files(u.1.fs) == Files(w.fs)
  {
    var names := Candidates(w.fs, dir, listing, s.excludes);
    var run := Run(w.fs, dir, names, dateOf, failing);
    var o := Organize.Organize(s, w, dir, listing, dateOf, failing);
    assert o.0.history == run.1 && o.1.fs == run.0;
    RunComplete(w.fs, dir, names, dateOf, failing);
    ClearRunReplays(w.fs, dir, names, dateOf, failing);
    ClearRunUndoing(w.fs, dir, names, dateOf, failing);
    if run.1 != [] {
      UndoPutsBack(o.0, o.1, w.fs, rmFailing);
    } else {
      RunFiles(w.fs, dir, names, dateOf, failing);
    }
  }

  /** An undo that restores every record, in reverse order, brings back
      the files the moves started from. */
  lemma UndoPutsBack(s: Session, w: World, before: FS, rmFailing: set<Path>)
    requires s.history != [] && Restored(s, w, {}) == Reverse(s.history)
    requires ApplyMoves(Files(w.fs), Inverse(Reverse(s.history))) == Files(before)
    ensures var u := UndoLast(s, w, {}, rmFailing);
      u.0.history == [] && Files(u.1.fs) == Files(before)
  {
    UndoEffect(s, w, {}, rmFailing);
  }
}

=== FILE: selection.dfy ===
/** Which files an organize run touches: the exclusion list typed into the
    dialog, parsed as `set(name.strip() for name in s.split(","))`, and the
    regular files directly inside the chosen directory that it does not name. */
module Selection {
  import opened Wrappers
  import opened Paths
  import opened FileSystem
  import opened Seqs

  /** The position of the first `c` in `s`. */
  function FirstIndex(s: string, c: char): (k: nat)
    requires c in s
    ensures k < |s| && s[k] == c && c !in s[..k]
  {
    if s[0] == c then 0
    else
      assert s == [s[0]] + s[1..];
      1 + FirstIndex(s[1..], c)
  }

  /** `s.split(sep)`: the pieces between separators, empty ones kept;
      there is always at least one piece. */
  function Split(s: string, sep: char): (r: seq<string>)
    ensures |r| >= 1
    ensures forall i | 0 <= i < |r| :: sep !in r[i]
    decreases |s|
  {
    if sep !in s then [s]
    else
      var k := FirstIndex(s, sep);
      [s[..k]] + Split(s[k + 1..], sep)
  }

  /** `sep.join(parts)`. */
  function JoinWith(parts: seq<string>, sep: char): string
    requires |parts| >= 1
  {
    if |parts| == 1 then parts[0]
    else parts[0] + [sep] + JoinWith(parts[1..], sep)
  }

  /** Joining the pieces gives back the input. */
  lemma {:induction false} JoinSplit(s: string, sep: char)
    ensures JoinWith(Split(s, sep), sep) == s
    decreases |s|
  {
    if sep in s {
      var k := FirstIndex(s, sep);
      var pieces := Split(s[k + 1..], sep);
      assert Split(s, sep) == [s[..k]] + pieces;
      JoinWithCons(s[..k], pieces, sep);
      JoinSplit(s[k + 1..], sep);
      assert s == s[..k] + [sep] + s[k + 1..];
    }
  }

  lemma JoinWithCons(a: string, rest: seq<string>, sep: char)
    requires |rest| >= 1
    ensures JoinWith([a] + rest, sep) == a + [sep] + JoinWith(rest, sep)
  {
    assert ([a] + rest)[1..] == rest;
  }

  lemma {:induction false} FirstIndexAfter(a: string, b: string, sep: char)
    requires sep !in a
    ensures FirstIndex(a + [sep] + b, sep) == |a|
  {
    var s := a + [sep] + b;
    if |a| > 0 {
      assert s[0] == a[0];
      assert s[1..] == a[1..] + [sep] + b;
      FirstIndexAfter(a[1..], b, sep);
    }
  }

  /** Splitting at a first separator after a separator-free piece yields
      that piece followed by the pieces of the rest. */
  lemma SplitCons(a: string, rest: string, sep: char)
    requires sep !in a
    ensures Split(a + [sep] + rest, sep) == [a] + Split(rest, sep)
  {
    var s := a + [sep] + rest;
    assert s[|a|] == sep;
    FirstIndexAfter(a, rest, sep);
    assert s[..|a|] == a;
    assert s[|a| + 1..] == rest;
  }

  /** Splitting a joined list of separator-free pieces gives back the pieces. */
  lemma {:induction false} SplitJoin(parts: seq<string>, sep: char)
    requires |parts| >= 1
    requires forall i | 0 <= i < |parts| :: sep !in parts[i]
    ensures Split(JoinWith(parts, sep), sep) == parts
  {
    if |parts| > 1 {
      var rest := JoinWith(parts[1..], sep);
      assert JoinWith(parts, sep) == parts[0] + [sep] + rest;
      SplitCons(parts[0], rest, sep);
      SplitJoin(parts[1..], sep);
      assert [parts[0]] + parts[1..] == parts;
    }
  }

  /** The characters `str.isspace()` accepts, by code point. */
  predicate IsSpace(c: char)
  {
    || '\t' <= c <= '\r' || '\U{001C}' <= c <= ' '
    || c == '\U{0085}' || c == '\U{00A0}' || c == '\U{1680}'
    || '\U{2000}' <= c <= '\U{200A}' || c == '\U{2028}' || c == '\U{2029}'
    || c == '\U{202F}' || c == '\U{205F}' || c == '\U{3000}'
  }

  predicate AllSpace(s: string)
  {
    forall i | 0 <= i < |s| :: IsSpace(s[i])
  }

  /** Every character of `s[lo..hi]` is whitespace. */
  predicate SpaceBetween(s: string, lo: nat, hi: nat)
    requires lo <= hi <= |s|
  {
    forall k | lo <= k < hi :: IsSpace(s[k])
  }

  lemma SpaceBetweenSlice(s: string, lo: nat, hi: nat)
    requires lo <= hi <= |s| && SpaceBetween(s, lo, hi)
    ensures AllSpace(s[lo..hi])
  {
    var t := s[lo..hi];
    forall k | 0 <= k < |t| ensures IsSpace(t[k]) {
      assert t[k] == s[lo + k];
    }
  }

  /** The number of leading whitespace characters. */
  function LeadingSpace(s: string): (n: nat)
    ensures n <= |s| && SpaceBetween(s, 0, n) && (n == |s| || !IsSpace(s[n]))
  {
    if |s| == 0 || !IsSpace(s[0]) then 0
    else
      var m := LeadingSpace(s[1..]);
      assert forall k | 1 <= k < m + 1 :: s[k] == s[1..][k - 1];
      m + 1
  }

  /** The number of trailing whitespace characters. */
  function TrailingSpace(s: string): (n: nat)
    ensures n <= |s| && SpaceBetween(s, |s| - n, |s|) && (n == |s| || !IsSpace(s[|s| - n - 1]))
  {
    if |s| == 0 || !IsSpace(s[|s| - 1]) then 0
    else
      var m := TrailingSpace(s[..|s| - 1]);
      assert forall k | |s| - 1 - m <= k < |s| - 1 :: s[k] == s[..|s| - 1][k];
      m + 1
  }

  /** Where `str.strip()` cuts: the outer whitespace runs are `s[..i]` and
      `s[j..]`, and what is left starts and ends with a non-space. */
  function StripBounds(s: string): (b: (nat, nat))
    ensures b.0 <= b.1 <= |s|
    ensures SpaceBetween(s, 0, b.0) && SpaceBetween(s, b.1, |s|)
    ensures b.0 == b.1 || (!IsSpace(s[b.0]) && !IsSpace(s[b.1 - 1]))
  {
    var i := LeadingSpace(s);
    TrailingOfSuffix(s, i);
    (i, |s| - TrailingSpace(s[i..]))
  }

  /** The trailing whitespace of a suffix `s[i..]` is trailing whitespace
      of `s`, and the character before it is the same one. */
  lemma TrailingOfSuffix(s: string, i: nat)
    requires i <= |s|
    ensures var n := TrailingSpace(s[i..]);
      && SpaceBetween(s, |s| - n, |s|)
      && (n == |s| - i || (s[|s| - n - 1] == s[i..][|s| - i - n - 1] && !IsSpace(s[|s| - n - 1])))
  {
    var t := s[i..];
    var n := TrailingSpace(t);
    assert forall k | |s| - n <= k < |s| :: s[k] == t[k - i];
  }

  /** `str.strip()`: the input with every leading and trailing whitespace
      character removed, and nothing else. */
  function Strip(s: string): (r: string)
    ensures exists i, j | 0 <= i <= j <= |s| :: r == s[i..j] && AllSpace(s[..i]) && AllSpace(s[j..])
    ensures r == [] || (!IsSpace(r[0]) && !IsSpace(r[|r| - 1]))
    ensures forall k | 0 <= k < |r| :: r[k] in s
  {
    var b := StripBounds(s);
    var r := s[b.0..b.1];
    SpaceBetweenSlice(s, 0, b.0);
    SpaceBetweenSlice(s, b.1, |s|);
    assert s[..b.0] == s[0..b.0] && s[b.1..] == s[b.1..|s|];
    assert forall k | 0 <= k < |r| :: r[k] == s[b.0 + k];
    r
  }

  /** A string without outer whitespace is its own strip. */
  lemma StripTrimmed(s: string)
    requires s == [] || (!IsSpace(s[0]) && !IsSpace(s[|s| - 1]))
    ensures Strip(s) == s
  {
    if |s| > 0 {
      assert LeadingSpace(s) == 0;
      assert TrailingSpace(s) == 0;
    }
  }

  /** `get_excludes`: the dialog's answer (`None` when cancelled) becomes the
      exclusion set; an empty or cancelled answer excludes nothing. Every
      member is comma-free and carries no outer whitespace, and every piece
      of a non-empty answer contributes its stripped self. */
  function ParseExcludes(answer: Option<string>): (r: set<string>)
    ensures answer.None? || answer == Some("") ==> r == {}
    ensures answer.Some? && answer.value != "" ==> r != {}
    ensures forall x | x in r :: ',' !in x && (x == [] || (!IsSpace(x[0]) && !IsSpace(x[|x| - 1])))
  {
    match answer
    case None => {}
    case Some(s) =>
      if s == "" then {}
      else
        var parts := Split(s, ',');
        var r := set p | p in parts :: Strip(p);
        assert Strip(parts[0]) in r;
        r
  }

  /** Whatever is typed, the exclusion set holds exactly the stripped
      comma-separated pieces: every input is the join of its own pieces, so
      this covers every non-empty answer. */
  lemma ParseExcludesPieces(parts: seq<string>)
    requires |parts| >= 1 && JoinWith(parts, ',') != ""
    requires forall i | 0 <= i < |parts| :: ',' !in parts[i]
    ensures ParseExcludes(Some(JoinWith(parts, ','))) == set p | p in parts :: Strip(p)
  {
    var s := JoinWith(parts, ',');
    SplitJoin(parts, ',');
    assert Split(s, ',') == parts;
    assert ParseExcludes(Some(s)) == set p | p in Split(s, ',') :: Strip(p);
  }

  /** Typing a list of comma-free names with no whitespace around them
      gives back exactly those names. */
  lemma ParseExcludesJoined(names: seq<string>)
    requires |names| >= 1 && JoinWith(names, ',') != ""
    requires forall i | 0 <= i < |names| :: ',' !in names[i]
    requires forall i | 0 <= i < |names| ::
      names[i] == [] || (!IsSpace(names[i][0]) && !IsSpace(names[i][|names[i]| - 1]))
    ensures ParseExcludes(Some(JoinWith(names, ','))) == set n | n in names
  {
    ParseExcludesPieces(names);
    forall n | n in names ensures Strip(n) == n {
      StripTrimmed(n);
    }
  }

  /** A blank before a trimmed word is stripped away. */
  lemma StripAfterBlank(w: string)
    requires |w| > 0 && !IsSpace(w[0]) && !IsSpace(w[|w| - 1])
    ensures Strip(" " + w) == w
  {
    var s := " " + w;
    assert s[1..] == w;
    assert LeadingSpace(s) == 1;
    assert TrailingSpace(w) == 0;
  }

  lemma JoinTwo(a: string, b: string)
    ensures JoinWith([a, b], ',') == a + "," + b
  {
    assert [a, b][1..] == [b];
  }

  /** Typing `a, b` excludes `a` and `b`: the blank after the comma is
      stripped. */
  lemma ParseExcludesSpaced(a: string, b: string)
    requires ',' !in a && ',' !in b
    requires a == [] || (!IsSpace(a[0]) && !IsSpace(a[|a| - 1]))
    requires |b| > 0 && !IsSpace(b[0]) && !IsSpace(b[|b| - 1])
    ensures ParseExcludes(Some(a + ", " + b)) == {a, b}
  {
    var parts := [a, " " + b];
    JoinTwo(a, " " + b);
    assert a + "," + (" " + b) == a + ", " + b;
    assert ',' !in " " + b;
    ParseExcludesPieces(parts);
    StripTrimmed(a);
    StripAfterBlank(b);
    StripTwo(a, " " + b);
  }

  /** The stripped pieces of a two-piece answer. */
  lemma StripTwo(p: string, q: string)
    ensures (set x | x in [p, q] :: Strip(x)) == {Strip(p), Strip(q)}
  {
    var parts := [p, q];
    var excluded := set x | x in parts :: Strip(x);
    assert parts[0] == p && parts[1] == q;
    forall y | y in excluded ensures y == Strip(p) || y == Strip(q) {
      var x :| x in parts && y == Strip(x);
      assert x == p || x == q;
    }
  }

  /** The filter at the start of `organizer`: the listed names that are
      regular files directly inside `dir` and not excluded, in listing
      order. */
  function Candidates(fs: FS, dir: Path, listing: seq<string>, excludes: set<string>): (r: seq<string>)
    ensures forall n :: n in r <==> n in listing && IsFile(fs, Join(dir, n)) && n !in excludes
    ensures IsSubseq(r, listing)
  {
    if |listing| == 0 then []
    else
      var rest := Candidates(fs, dir, listing[1..], excludes);
      if IsFile(fs, Join(dir, listing[0])) && listing[0] !in excludes then
        assert ([listing[0]] + rest)[1..] == rest;
        [listing[0]] + rest
      else
        SubseqOfTail(rest, listing);
        rest
  }

  /** With a genuine directory listing, the candidates are exactly the
      regular files directly inside `dir` that the set does not name, each
      once. */
  lemma CandidatesAreUnexcludedFiles(fs: FS, dir: Path, listing: seq<string>, excludes: set<string>)
    requires IsListing(fs, dir, listing)
    ensures var r := Candidates(fs, dir, listing, excludes);
      && (set n | n in r) == DirectFiles(fs, dir) - excludes
      && Distinct(r)
  {
    var r := Candidates(fs, dir, listing, excludes);
    forall n | IsFile(fs, Join(dir, n)) ensures n in listing {
      var q := Join(dir, n);
      assert q in fs && InDir(q, dir) && q[|dir|] == n;
      assert n in Names(fs, dir);
    }
    CandidatesDistinct(fs, dir, listing, excludes);
  }

  lemma {:induction false} CandidatesDistinct(fs: FS, dir: Path, listing: seq<string>, excludes: set<string>)
    requires Distinct(listing)
    ensures Distinct(Candidates(fs, dir, listing, excludes))
  {
    if |listing| > 0 {
      CandidatesDistinct(fs, dir, listing[1..], excludes);
      assert listing[0] !in listing[1..] by {
        forall k | 0 <= k < |listing| - 1 ensures listing[1..][k] != listing[0] {
          assert listing[1..][k] == listing[k + 1];
        }
      }
    }
  }
}

=== FILE: seqs.dfy ===
/** Order-keeping selection from a sequence, and sequences without repeats. */
module Seqs {

  /** `a` is `b` with some elements left out, the rest in the same order. */
  predicate IsSubseq<T(==)>(a: seq<T>, b: seq<T>)
    decreases |b|
  {
    if |a| == 0 then true
    else if |b| == 0 then false
    else (a[0] == b[0] && IsSubseq(a[1..], b[1..])) || IsSubseq(a, b[1..])
  }

  /** Leaving out the head of `b` as well keeps `a` a selection from it. */
  lemma SubseqOfTail<T>(a: seq<T>, b: seq<T>)
    requires |b| > 0 && IsSubseq(a, b[1..])
    ensures IsSubseq(a, b)
  {
  }

  /** No element occurs twice. */
  predicate Distinct<T(==)>(s: seq<T>)
  {
    forall i, j | 0 <= i < j < |s| :: s[i] != s[j]
  }

  /** An element of a sequence without repeats occurs in it once. */
  lemma {:induction false} DistinctCount<T>(s: seq<T>, x: T)
    requires Distinct(s)
    ensures multiset(s)[x] <= 1
    decreases |s|
  {
    if |s| > 0 {
      assert s == [s[0]] + s[1..];
      assert Distinct(s[1..]) by {
        forall i, j | 0 <= i < j < |s| - 1 ensures s[1..][i] != s[1..][j] {
          assert s[1..][i] == s[i + 1] && s[1..][j] == s[j + 1];
        }
      }
      DistinctCount(s[1..], x);
      if s[0] == x {
        assert x !in s[1..] by {
          forall k | 0 <= k < |s| - 1 ensures s[1..][k] != x {
            assert s[1..][k] == s[k + 1];
          }
        }
      }
    }
  }

  /** An element found at two positions occurs at least twice. */
  lemma RepeatCount<T>(s: seq<T>, i: nat, j: nat)
    requires i < j < |s| && s[i] == s[j]
    ensures multiset(s)[s[i]] >= 2
  {
    assert s == s[..j] + [s[j]] + s[j + 1..];
    assert s[..j][i] == s[i];
    assert s[i] in multiset(s[..j]);
  }

  /** A rearrangement of a sequence without repeats has none either. */
  lemma DistinctPermutation<T>(a: seq<T>, b: seq<T>)
    requires multiset(a) == multiset(b) && Distinct(b)
    ensures Distinct(a)
  {
    forall i, j | 0 <= i < j < |a| ensures a[i] != a[j] {
      if a[i] == a[j] {
        RepeatCount(a, i, j);
        DistinctCount(b, a[i]);
      }
    }
  }
}

=== FILE: undo.dfy ===
/** `undo_last`: replay the history backwards, moving each file from its
    recorded target to its recorded original; then visit the date folders of
    the restored files, longest path first, removing each that is empty
    together with its extension folder when that is then empty too; finally
    clear the history whatever failed. */
module Undo {
  import opened Paths
  import opened FileSystem
  import opened Ledger
  import opened Seqs

  /** The replay loop of `undo_last` (FileOrganizer.py:74-84) over `recs`: the filesystem afterwards
      and the records whose file was moved back. */
  function Replay(fs: FS, recs: seq<MoveRecord>, failing: set<Path>): (r: (FS, seq<MoveRecord>))
    ensures |r.1| <= |recs|
    ensures |r.1| == |recs| ==> r.1 == recs
    decreases |recs|
  {
    if |recs| == 0 then (fs, [])
    else
      var m := Move(fs, recs[0].target, recs[0].original, recs[0].target in failing);
      var rest := Replay(if m.Some? then m.value else fs, recs[1..], failing);
      (rest.0, if m.Some? then [recs[0]] + rest.1 else rest.1)
  }

  /** The restored records are some of the replayed ones, in replay order,
      and none is one whose move back the platform refused. */
  lemma {:induction false} ReplayRestored(fs: FS, recs: seq<MoveRecord>, failing: set<Path>)
    ensures var done := Replay(fs, recs, failing).1;
      && IsSubseq(done, recs)
      && forall i | 0 <= i < |done| :: done[i].target !in failing
    decreases |recs|
  {
    if |recs| > 0 {
      var m := Move(fs, recs[0].target, recs[0].original, recs[0].target in failing);
      var fs1 := if m.Some? then m.value else fs;
      var done := Replay(fs, recs, failing).1;
      var rest := Replay(fs1, recs[1..], failing).1;
      ReplayRestored(fs1, recs[1..], failing);
      assert done == (if m.Some? then [recs[0]] + rest else rest);
      if m.Some? {
        assert done[1..] == rest;
        assert forall i | 1 <= i < |done| :: done[i] == rest[i - 1];
      }
    }
  }

  /** Replaying the history leaves the folders exactly as they were. */
  lemma {:induction false} ReplayKeepsFolders(fs: FS, recs: seq<MoveRecord>, failing: set<Path>)
    ensures forall p :: IsDir(Replay(fs, recs, failing).0, p) <==> IsDir(fs, p)
    decreases |recs|
  {
    if |recs| > 0 {
      var m := Move(fs, recs[0].target, recs[0].original, recs[0].target in failing);
      var fs1 := if m.Some? then m.value else fs;
      assert Replay(fs, recs, failing).0 == Replay(fs1, recs[1..], failing).0;
      ReplayKeepsFolders(fs1, recs[1..], failing);
      if m.Some? {
        MoveEffect(fs, recs[0].target, recs[0].original, recs[0].target in failing);
      }
    }
  }

  /** Each restored record moved exactly its one file back: the files end
      up as the inverse moves of the restored records leave them. */
  lemma {:induction false} ReplayFiles(fs: FS, recs: seq<MoveRecord>, failing: set<Path>)
    ensures var r := Replay(fs, recs, failing);
      Files(r.0) == ApplyMoves(Files(fs), Inverse(r.1))
    decreases |recs|
  {
    if |recs| > 0 {
      var m := Move(fs, recs[0].target, recs[0].original, recs[0].target in failing);
      var fs1 := if m.Some? then m.value else fs;
      var r := Replay(fs, recs, failing);
      var rest := Replay(fs1, recs[1..], failing);
      assert r == (rest.0, if m.Some? then [recs[0]] + rest.1 else rest.1);
      ReplayFiles(fs1, recs[1..], failing);
      if m.Some? {
        MoveEffect(fs, recs[0].target, recs[0].original, recs[0].target in failing);
        var inv := Inverse(r.1);
        assert inv[0] == MoveRecord(recs[0].original, recs[0].target);
        assert inv[1..] == Inverse(rest.1);
        assert ApplyMoves(Files(fs), inv) == ApplyMoves(Files(fs1), inv[1..]);
      }
    }
  }

  /** Each restored record moved exactly its one file back, and nothing
      else changed: the files end up as the inverse moves leave them, and
      the folders are exactly those there were. */
  lemma ReplayEffect(fs: FS, recs: seq<MoveRecord>, failing: set<Path>)
    ensures var r := Replay(fs, recs, failing);
      && Files(r.0) == ApplyMoves(Files(fs), Inverse(r.1))
      && forall p :: IsDir(r.0, p) <==> IsDir(fs, p)
  {
    ReplayFiles(fs, recs, failing);
    ReplayKeepsFolders(fs, recs, failing);
  }

  /** The records' paths are pairwise distinct: no two share a target, no
      two share an original, and no target is an original. */
  ghost predicate Separated(recs: seq<MoveRecord>)
  {
    forall i, j | 0 <= i < |recs| && 0 <= j < |recs| ::
      && (i != j ==> recs[i].target != recs[j].target && recs[i].original != recs[j].original)
      && recs[i].target != recs[j].original
  }

  /** Every record's file sits at its target, nothing (or a file) sits at
      its original, and the original's folder exists. */
  ghost predicate Restorable(fs: FS, recs: seq<MoveRecord>)
  {
    forall i | 0 <= i < |recs| ::
      IsFile(fs, recs[i].target) && !IsDir(fs, recs[i].original) && ParentExists(fs, recs[i].original)
  }

  lemma SeparatedTail(recs: seq<MoveRecord>)
    requires |recs| > 0 && Separated(recs)
    ensures Separated(recs[1..])
  {
    var tail := recs[1..];
    forall i, j | 0 <= i < |tail| && 0 <= j < |tail|
      ensures && (i != j ==> tail[i].target != tail[j].target && tail[i].original != tail[j].original)
              && tail[i].target != tail[j].original
    {
      assert tail[i] == recs[i + 1] && tail[j] == recs[j + 1];
    }
  }

  /** Moving the first file back leaves the others restorable. */
  lemma RestorableTail(fs: FS, recs: seq<MoveRecord>)
    requires |recs| > 0 && Separated(recs) && Restorable(fs, recs)
    ensures var m := Move(fs, recs[0].target, recs[0].original, false);
      m.Some? && Restorable(m.value, recs[1..])
  {
    var r0 := recs[0];
    var fs1 := Move(fs, r0.target, r0.original, false).value;
    MoveEffect(fs, r0.target, r0.original, false);
    var tail := recs[1..];
    forall i | 0 <= i < |tail|
      ensures IsFile(fs1, tail[i].target) && !IsDir(fs1, tail[i].original) && ParentExists(fs1, tail[i].original)
    {
      assert tail[i] == recs[i + 1];
      assert tail[i].target != r0.target && tail[i].target != r0.original;
      assert tail[i].target in Files(fs);
      assert tail[i].target in Files(fs1);
    }
  }

  /** When every file can go back and the platform refuses nothing, every
      record is restored. */
  lemma {:induction false} ReplayComplete(fs: FS, recs: seq<MoveRecord>)
    requires Separated(recs) && Restorable(fs, recs)
    ensures Replay(fs, recs, {}).1 == recs
    decreases |recs|
  {
    if |recs| > 0 {
      RestorableTail(fs, recs);
      SeparatedTail(recs);
      var fs1 := Move(fs, recs[0].target, recs[0].original, false).value;
      ReplayComplete(fs1, recs[1..]);
      assert Replay(fs, recs, {}).1 == [recs[0]] + Replay(fs1, recs[1..], {}).1;
    }
  }

  /** `s` with later repetitions dropped. */
  function Dedup(s: seq<Path>): (r: seq<Path>)
    ensures forall x :: x in r <==> x in s
    ensures forall i, j | 0 <= i < j < |r| :: r[i] != r[j]
  {
    if |s| == 0 then []
    else
      var rest := Dedup(s[1..]);
      assert forall x :: x in s <==> x == s[0] || x in s[1..];
      if s[0] in rest then rest else [s[0]] + rest
  }

  /** The folders `dirname(target)` of the restored records, in order. */
  function TargetFolders(done: seq<MoveRecord>): (r: seq<Path>)
    ensures |r| == |done|
    ensures forall i | 0 <= i < |done| :: r[i] == Parent(done[i].target)
  {
    seq(|done|, i requires 0 <= i < |done| => Parent(done[i].target))
  }

  /** The set of folders the replay builds (FileOrganizer.py:77-81): the folder of every restored file, each
      once. The second insertion (FileOrganizer.py:79-81) adds that same folder again, so only date folders are
      visited. */
  function Folders(done: seq<MoveRecord>): (r: seq<Path>)
    ensures forall f :: f in r <==> exists i | 0 <= i < |done| :: f == Parent(done[i].target)
    ensures forall i, j | 0 <= i < j < |r| :: r[i] != r[j]
  {
    var t := TargetFolders(done);
    assert forall f :: f in t <==> exists i | 0 <= i < |done| :: f == Parent(done[i].target) by {
      forall f ensures f in t <==> exists i | 0 <= i < |done| :: f == Parent(done[i].target) {
        if f in t {
          var i :| 0 <= i < |t| && t[i] == f;
          assert f == Parent(done[i].target);
        }
      }
    }
    Dedup(t)
  }

  /** Path lengths never increase along `s`. */
  predicate LongestFirst(s: seq<Path>)
  {
    forall i, j | 0 <= i < j < |s| :: Length(s[i]) >= Length(s[j])
  }

  /** Puts `p` into a sequence after its leading paths at least as long. */
  function Insert(p: Path, s: seq<Path>): (r: seq<Path>)
    ensures multiset(r) == multiset(s) + multiset{p}
  {
    if |s| == 0 then [p]
    else if Length(s[0]) >= Length(p) then
      var rest := Insert(p, s[1..]);
      assert s == [s[0]] + s[1..];
      [s[0]] + rest
    else
      [p] + s
  }

  lemma LongestFirstTail(s: seq<Path>)
    requires |s| > 0 && LongestFirst(s)
    ensures LongestFirst(s[1..])
    ensures forall x | x in s[1..] :: Length(x) <= Length(s[0])
  {
    var tail := s[1..];
    forall i, j | 0 <= i < j < |tail| ensures Length(tail[i]) >= Length(tail[j]) {
      assert tail[i] == s[i + 1] && tail[j] == s[j + 1];
    }
    forall x | x in tail ensures Length(x) <= Length(s[0]) {
      var k :| 0 <= k < |tail| && tail[k] == x;
      assert tail[k] == s[k + 1];
    }
  }

  /** Every path of an insertion is the inserted one or one of the others. */
  lemma InsertMembers(p: Path, s: seq<Path>, x: Path)
    requires x in Insert(p, s)
    ensures x == p || x in s
  {
    assert x in multiset(Insert(p, s));
  }

  /** Inserting into a longest-first sequence keeps it longest-first. */
  lemma {:induction false} InsertOrdered(p: Path, s: seq<Path>)
    requires LongestFirst(s)
    ensures LongestFirst(Insert(p, s))
  {
    if |s| > 0 && Length(s[0]) >= Length(p) {
      var tail := s[1..];
      LongestFirstTail(s);
      InsertOrdered(p, tail);
      var rest := Insert(p, tail);
      var r := Insert(p, s);
      assert r == [s[0]] + rest;
      forall i, j | 0 <= i < j < |r| ensures Length(r[i]) >= Length(r[j]) {
        assert r[j] == rest[j - 1];
        if i > 0 {
          assert r[i] == rest[i - 1];
        } else {
          InsertMembers(p, tail, rest[j - 1]);
        }
      }
    } else if |s| > 0 {
      var r := Insert(p, s);
      assert r == [p] + s;
      forall i, j | 0 <= i < j < |r| ensures Length(r[i]) >= Length(r[j]) {
        assert r[j] == s[j - 1];
        if i > 0 {
          assert r[i] == s[i - 1];
        } else if j > 1 {
          assert Length(s[0]) >= Length(s[j - 1]);
        }
      }
    }
  }

  /** `sorted(folders, key=len, reverse=True)`: the same folders, longest
      path first. Python breaks ties by the iteration order of a set, which
      is not modelled; ties here come out in an order of their own. */
  function SortByLength(s: seq<Path>): (r: seq<Path>)
    ensures multiset(r) == multiset(s)
    ensures LongestFirst(r)
  {
    if |s| == 0 then []
    else
      assert s == [s[0]] + s[1..];
      var rest := SortByLength(s[1..]);
      InsertOrdered(s[0], rest);
      Insert(s[0], rest)
  }

  /** `os.path.exists`. */
  predicate Exists(fs: FS, p: Path)
  {
    p == [] || p in fs
  }

  /** One visit of the cleanup loop (FileOrganizer.py:87-102) to `folder`, with
      `quirk` the basename the extension-folder test compares against. */
  function CleanupOne(fs: FS, folder: Path, quirk: string, failing: set<Path>): (r: (FS, seq<LogLine>))
    ensures r.0.Keys <= fs.Keys
    ensures |r.1| <= 2
    ensures IsFile(fs, folder) ==> r.1 == [FailedRemove(folder)]
    ensures IsEmptyDir(fs, folder) && (folder == [] || folder in failing) ==> r.1 == [FailedRemove(folder)]
    ensures Parent(folder) in fs && Parent(folder) !in r.0 ==>
      r.1 == [RemovedFolder(folder), RemovedExtensionFolder(Parent(folder))]
  {
    if !Exists(fs, folder) then (fs, [])
    else if IsFile(fs, folder) then (fs, [FailedRemove(folder)])
    else if !IsEmptyDir(fs, folder) then (fs, [])
    else match RemoveDir(fs, folder, folder in failing)
      case None => (fs, [FailedRemove(folder)])
      case Some(fs1) =>
        var ext := Parent(folder);
        if !Exists(fs1, ext) then (fs1, [RemovedFolder(folder)])
        else if IsFile(fs1, ext) then (fs1, [RemovedFolder(folder), FailedRemove(folder)])
        else if !IsEmptyDir(fs1, ext) || Basename(ext) == quirk then (fs1, [RemovedFolder(folder)])
        else match RemoveDir(fs1, ext, ext in failing)
          case None => (fs1, [RemovedFolder(folder), FailedRemove(folder)])
          case Some(fs2) => (fs2, [RemovedFolder(folder), RemovedExtensionFolder(ext)])
  }

  /** Cleaning up one folder keeps every entry it does not remove as it was. */
  lemma CleanupOneKeeps(fs: FS, folder: Path, quirk: string, failing: set<Path>)
    ensures var r := CleanupOne(fs, folder, quirk, failing);
      forall p | p in r.0 :: p in fs && r.0[p] == fs[p]
  {
  }

  /** What cleaning up one folder removes is that folder or its parent. */
  lemma CleanupOneRemoves(fs: FS, folder: Path, quirk: string, failing: set<Path>)
    ensures var r := CleanupOne(fs, folder, quirk, failing);
      forall p | p in fs && p !in r.0 :: fs[p] == Dir && (p == folder || p == Parent(folder))
  {
  }

  /** Cleaning up one folder only removes folders, and only the folder and
      its parent; so no file is ever removed. */
  lemma CleanupOneShrinks(fs: FS, folder: Path, quirk: string, failing: set<Path>)
    ensures var r := CleanupOne(fs, folder, quirk, failing);
      && (forall p | p in r.0 :: p in fs && r.0[p] == fs[p])
      && (forall p | p in fs && p !in r.0 :: fs[p] == Dir && (p == folder || p == Parent(folder)))
      && Files(r.0) == Files(fs)
  {
    var r := CleanupOne(fs, folder, quirk, failing);
    CleanupOneKeeps(fs, folder, quirk, failing);
    CleanupOneRemoves(fs, folder, quirk, failing);
    DroppingFoldersKeepsFiles(fs, r.0);
  }

  /** The folder goes exactly when it is an empty folder other than the
      root that the platform lets go of, and exactly then is it logged as
      removed. */
  lemma CleanupOneFolder(fs: FS, folder: Path, quirk: string, failing: set<Path>)
    ensures var r := CleanupOne(fs, folder, quirk, failing);
      && (folder in fs && folder !in r.0 <==> folder != [] && IsEmptyDir(fs, folder) && folder !in failing)
      && (folder in fs && folder !in r.0 <==> RemovedFolder(folder) in r.1)
  {
  }

  /** The parent goes only right after the folder, only when it is then
      empty and its basename is not `quirk`; and it does go then unless it
      is the root or the platform refuses. */
  lemma CleanupOneExtension(fs: FS, folder: Path, quirk: string, failing: set<Path>)
    ensures var r := CleanupOne(fs, folder, quirk, failing);
      var ext := Parent(folder);
      && (ext != folder && ext in fs && ext !in r.0 ==>
            folder in fs && folder !in r.0 && IsEmptyDir(fs - {folder}, ext) && Basename(ext) != quirk)
      && ((folder in fs && folder !in r.0 && ext != [] && IsEmptyDir(fs - {folder}, ext)
            && Basename(ext) != quirk && ext !in failing) ==> ext !in r.0)
  {
  }

  /** The cleanup rules for one folder. Only entries disappear, and only the
      folder and its parent. The folder goes exactly when it is an empty
      folder the platform lets go of, and then is logged as removed. Its
      parent goes only right after it, only if the parent is then empty and
      its basename is not `quirk`, and always when in addition the platform
      lets it go. No file is ever removed. */
  lemma CleanupOneRules(fs: FS, folder: Path, quirk: string, failing: set<Path>)
    ensures var r := CleanupOne(fs, folder, quirk, failing);
      var ext := Parent(folder);
      && (forall p | p in r.0 :: p in fs && r.0[p] == fs[p])
      && (forall p | p in fs && p !in r.0 :: p == folder || p == ext)
      && (folder in fs && folder !in r.0 <==> folder != [] && IsEmptyDir(fs, folder) && folder !in failing)
      && (folder in fs && folder !in r.0 <==> RemovedFolder(folder) in r.1)
      && (ext != folder && ext in fs && ext !in r.0 ==>
            folder in fs && folder !in r.0 && IsEmptyDir(fs - {folder}, ext) && Basename(ext) != quirk)
      && ((folder in fs && folder !in r.0 && ext != [] && IsEmptyDir(fs - {folder}, ext)
            && Basename(ext) != quirk && ext !in failing) ==> ext !in r.0)
      && Files(r.0) == Files(fs)
  {
    CleanupOneShrinks(fs, folder, quirk, failing);
    CleanupOneFolder(fs, folder, quirk, failing);
    CleanupOneExtension(fs, folder, quirk, failing);
  }

  /** What one visit writes to the log. A file in the folder's place, or an
      empty folder the platform will not remove, is logged as a failure; a
      missing or non-empty folder is passed over in silence; a removed folder
      is logged as removed, followed by the removal of its extension folder
      when that goes too, or by a failure when removing the extension
      folder is tried and goes wrong. */
  lemma CleanupOneLog(fs: FS, folder: Path, quirk: string, failing: set<Path>)
    ensures var r := CleanupOne(fs, folder, quirk, failing);
      var ext := Parent(folder);
      var gone := folder in fs && folder !in r.0;
      && (IsFile(fs, folder) ==> r.1 == [FailedRemove(folder)])
      && (IsEmptyDir(fs, folder) && (folder == [] || folder in failing) ==> r.1 == [FailedRemove(folder)])
      && (!IsFile(fs, folder) && (!Exists(fs, folder) || !IsEmptyDir(fs, folder)) ==> r.1 == [])
      && (gone ==> |r.1| >= 1 && r.1[0] == RemovedFolder(folder))
      && (gone && ext in fs && ext !in r.0 ==> r.1 == [RemovedFolder(folder), RemovedExtensionFolder(ext)])
      && (RemovedExtensionFolder(ext) in r.1 <==> gone && ext in fs && ext !in r.0)
  {
  }

  /** A visit logs a failure exactly when a removal it tries goes wrong:
      the folder's place holds a file, the folder is empty but stays, or the
      folder went and its extension folder is a file or an empty folder
      that stays although its name passed the test. */
  lemma CleanupOneFailureLogged(fs: FS, folder: Path, quirk: string, failing: set<Path>)
    ensures var r := CleanupOne(fs, folder, quirk, failing);
      var ext := Parent(folder);
      var gone := folder in fs && folder !in r.0;
      FailedRemove(folder) in r.1 <==>
            || IsFile(fs, folder)
            || (IsEmptyDir(fs, folder) && (folder == [] || folder in failing))
            || (gone && (IsFile(fs, ext)
                         || (IsEmptyDir(fs - {folder}, ext) && Basename(ext) != quirk && (ext == [] || ext in failing))))
  {
  }

  /** The cleanup loop of `undo_last` (FileOrganizer.py:86-103): the visit of each folder of `order` in turn. */
  function Cleanup(fs: FS, order: seq<Path>, quirk: string, failing: set<Path>): (r: (FS, seq<LogLine>))
    ensures r.0.Keys <= fs.Keys
    ensures |r.1| <= 2 * |order|
    decreases |order|
  {
    if |order| == 0 then (fs, [])
    else
      var one := CleanupOne(fs, order[0], quirk, failing);
      var rest := Cleanup(one.0, order[1..], quirk, failing);
      (rest.0, one.1 + rest.1)
  }

  /** `order[i]` or its parent. */
  ghost predicate VisitedOrParent(p: Path, order: seq<Path>)
  {
    exists i | 0 <= i < |order| :: p == order[i] || p == Parent(order[i])
  }

  /** The whole cleanup only ever removes folders, each one visited or the
      parent of one visited, and leaves every file where it was. */
  lemma {:induction false} CleanupRemovesOnlyFolders(fs: FS, order: seq<Path>, quirk: string, failing: set<Path>)
    ensures var r := Cleanup(fs, order, quirk, failing).0;
      && (forall p | p in r :: p in fs && r[p] == fs[p])
      && (forall p | p in fs && p !in r :: fs[p] == Dir && VisitedOrParent(p, order))
      && Files(r) == Files(fs)
    decreases |order|
  {
    if |order| > 0 {
      var one := CleanupOne(fs, order[0], quirk, failing);
      CleanupOneShrinks(fs, order[0], quirk, failing);
      CleanupRemovesOnlyFolders(one.0, order[1..], quirk, failing);
      var r := Cleanup(fs, order, quirk, failing).0;
      assert r == Cleanup(one.0, order[1..], quirk, failing).0;
      forall p | p in fs && p !in r ensures fs[p] == Dir && VisitedOrParent(p, order) {
        if p in one.0 {
          var i :| 0 <= i < |order[1..]| && (p == order[1..][i] || p == Parent(order[1..][i]));
          assert order[1..][i] == order[i + 1];
        } else {
          assert p == order[0] || p == Parent(order[0]);
        }
        assert p !in Files(r);
      }
    }
  }

  /** Visiting `a` and then `b` is visiting `a + b`: the tree after `a`
      is where `b` starts, and the log lines follow each other. */
  lemma {:induction false} CleanupAppend(fs: FS, a: seq<Path>, b: seq<Path>, quirk: string, failing: set<Path>)
    ensures var first := Cleanup(fs, a, quirk, failing);
      var second := Cleanup(first.0, b, quirk, failing);
      Cleanup(fs, a + b, quirk, failing) == (second.0, first.1 + second.1)
    decreases |a|
  {
    if |a| == 0 {
      assert a + b == b;
      assert Cleanup(fs, a, quirk, failing) == (fs, []);
      var second := Cleanup(fs, b, quirk, failing);
      assert [] + second.1 == second.1;
    } else {
      var one := CleanupOne(fs, a[0], quirk, failing);
      assert (a + b)[0] == a[0];
      assert (a + b)[1..] == a[1..] + b;
      CleanupAppend(one.0, a[1..], b, quirk, failing);
      var first := Cleanup(one.0, a[1..], quirk, failing);
      var second := Cleanup(first.0, b, quirk, failing);
      assert one.1 + (first.1 + second.1) == (one.1 + first.1) + second.1;
    }
  }

  /** A failure on one folder does not stop the others: the `k`-th folder
      of the order is removed, and logged as removed, whenever it is an
      empty folder other than the root that the platform lets go of by the
      time its turn comes, whatever the earlier visits did. */
  lemma CleanupVisitRemoves(fs: FS, order: seq<Path>, k: nat, quirk: string, failing: set<Path>)
    requires k < |order| && order[k] != [] && order[k] !in failing
    requires IsEmptyDir(Cleanup(fs, order[..k], quirk, failing).0, order[k])
    ensures var r := Cleanup(fs, order, quirk, failing);
      order[k] in fs && order[k] !in r.0 && RemovedFolder(order[k]) in r.1
  {
    var first := Cleanup(fs, order[..k], quirk, failing);
    var mid := first.0;
    assert order == order[..k] + order[k..];
    CleanupAppend(fs, order[..k], order[k..], quirk, failing);
    var one := CleanupOne(mid, order[k], quirk, failing);
    CleanupOneFolder(mid, order[k], quirk, failing);
    var rest := Cleanup(one.0, order[k + 1..], quirk, failing);
    assert order[k..][1..] == order[k + 1..];
    assert Cleanup(mid, order[k..], quirk, failing) == (rest.0, one.1 + rest.1);
    assert RemovedFolder(order[k]) in one.1 + rest.1;
  }

  /** The `Undo: …` log lines of the restored records. */
  function UndoneLines(done: seq<MoveRecord>): (r: seq<LogLine>)
    ensures |r| == |done|
    ensures forall i | 0 <= i < |done| :: r[i] == Undone(done[i].target, done[i].original)
  {
    seq(|done|, i requires 0 <= i < |done| => Undone(done[i].target, done[i].original))
  }

  /** The dialog `undo_last` ends with. */
  datatype UndoOutcome = NothingToUndo | LastUndone

  /** The records `undo_last` moves back: the history replayed from its
      last move to its first. */
  function Restored(s: Session, w: World, failing: set<Path>): (r: seq<MoveRecord>)
    ensures IsSubseq(r, Reverse(s.history))
  {
    var recs := Reverse(s.history);
    ReplayRestored(w.fs, recs, failing);
    Replay(w.fs, recs, failing).1
  }

  /** `undo_last`. With an empty history it only says so. Otherwise the
      history is replayed backwards (moves back the platform refuses, per
      `failing`, are skipped), the folders of the restored files are
      cleaned up longest path first (removals the platform refuses, per
      `rmFailing`, are logged), and the history is cleared whatever failed.
      The extension-folder test compares against the date folder of the
      first recorded move, because `src` still holds the loop's last value
      when the extension-folder test (FileOrganizer.py:97) reads it. */
  function UndoLast(s: Session, w: World, failing: set<Path>, rmFailing: set<Path>): (r: (Session, World, UndoOutcome))
    ensures s.history == [] ==> r == (s, w, NothingToUndo)
    ensures s.history != [] ==> r.0 == Session([], s.excludes) && r.2 == LastUndone
    ensures |w.log| <= |r.1.log| && r.1.log[..|w.log|] == w.log
  {
    if s.history == [] then (s, w, NothingToUndo)
    else
      var replay := Replay(w.fs, Reverse(s.history), failing);
      var quirk := Basename(Parent(s.history[0].target));
      var order := SortByLength(Folders(replay.1));
      var cleanup := Cleanup(replay.0, order, quirk, rmFailing);
      var log := w.log + UndoneLines(replay.1) + cleanup.1;
      assert log[..|w.log|] == w.log;
      (Session([], s.excludes), World(cleanup.0, log), LastUndone)
  }

  /** The steps of a non-empty undo, named. */
  lemma UndoSteps(s: Session, w: World, failing: set<Path>, rmFailing: set<Path>)
    requires s.history != []
    ensures var replay := Replay(w.fs, Reverse(s.history), failing);
      var order := SortByLength(Folders(replay.1));
      var cleanup := Cleanup(replay.0, order, Basename(Parent(s.history[0].target)), rmFailing);
      && Restored(s, w, failing) == replay.1
      && UndoLast(s, w, failing, rmFailing).1 == World(cleanup.0, w.log + UndoneLines(replay.1) + cleanup.1)
  {
  }

  /** Undo moves exactly the restored files back and touches no other
      file. */
  lemma UndoFiles(s: Session, w: World, failing: set<Path>, rmFailing: set<Path>)
    requires s.history != []
    ensures Files(UndoLast(s, w, failing, rmFailing).1.fs) == ApplyMoves(Files(w.fs), Inverse(Restored(s, w, failing)))
  {
    var recs := Reverse(s.history);
    var replay := Replay(w.fs, recs, failing);
    UndoSteps(s, w, failing, rmFailing);
    ReplayEffect(w.fs, recs, failing);
    var order := SortByLength(Folders(replay.1));
    CleanupRemovesOnlyFolders(replay.0, order, Basename(Parent(s.history[0].target)), rmFailing);
  }

  /** Undo creates no folder, and removes only folders of restored files
      and their parents. */
  lemma UndoFolders(s: Session, w: World, failing: set<Path>, rmFailing: set<Path>)
    requires s.history != []
    ensures var r := UndoLast(s, w, failing, rmFailing).1;
      var done := Restored(s, w, failing);
      && (forall p | IsDir(r.fs, p) :: IsDir(w.fs, p))
      && (forall p | IsDir(w.fs, p) && !IsDir(r.fs, p) ::
            exists i | 0 <= i < |done| :: p == Parent(done[i].target) || p == Parent(Parent(done[i].target)))
  {
    UndoSteps(s, w, failing, rmFailing);
    ReplayCleanupFolders(w.fs, Reverse(s.history), failing, Basename(Parent(s.history[0].target)), rmFailing);
  }

  /** The replay followed by the cleanup of the restored files' folders
      creates no folder and removes only those folders and their parents. */
  lemma ReplayCleanupFolders(fs: FS, recs: seq<MoveRecord>, failing: set<Path>, quirk: string, rmFailing: set<Path>)
    ensures var replay := Replay(fs, recs, failing);
      var r := Cleanup(replay.0, SortByLength(Folders(replay.1)), quirk, rmFailing).0;
      var done := replay.1;
      && (forall p | IsDir(r, p) :: IsDir(fs, p))
      && (forall p | IsDir(fs, p) && !IsDir(r, p) ::
            exists i | 0 <= i < |done| :: p == Parent(done[i].target) || p == Parent(Parent(done[i].target)))
  {
    var replay := Replay(fs, recs, failing);
    var done := replay.1;
    var order := SortByLength(Folders(done));
    var r := Cleanup(replay.0, order, quirk, rmFailing).0;
    ReplayKeepsFolders(fs, recs, failing);
    CleanupRemovesOnlyFolders(replay.0, order, quirk, rmFailing);
    forall p | IsDir(fs, p) && !IsDir(r, p)
      ensures exists i | 0 <= i < |done| :: p == Parent(done[i].target) || p == Parent(Parent(done[i].target))
    {
      assert IsDir(replay.0, p);
      CleanupRemovedNearRestored(replay.0, done, quirk, rmFailing, p);
    }
  }

  /** A folder the cleanup removes is the folder of a restored file or
      that folder's parent. */
  lemma CleanupRemovedNearRestored(fs: FS, done: seq<MoveRecord>, quirk: string, rmFailing: set<Path>, p: Path)
    requires p in fs && p !in Cleanup(fs, SortByLength(Folders(done)), quirk, rmFailing).0
    ensures exists i | 0 <= i < |done| :: p == Parent(done[i].target) || p == Parent(Parent(done[i].target))
  {
    var order := SortByLength(Folders(done));
    CleanupRemovesOnlyFolders(fs, order, quirk, rmFailing);
    var k :| 0 <= k < |order| && (p == order[k] || p == Parent(order[k]));
    assert order[k] in multiset(order);
    assert order[k] in Folders(done);
  }

  /** The undo's log continues with one `Undo:` line per restored file, in
      the order they were moved back. */
  lemma UndoLog(s: Session, w: World, failing: set<Path>, rmFailing: set<Path>)
    requires s.history != []
    ensures var r := UndoLast(s, w, failing, rmFailing).1;
      var done := Restored(s, w, failing);
      |w.log| + |done| <= |r.log| && r.log[|w.log|..|w.log| + |done|] == UndoneLines(done)
  {
    var recs := Reverse(s.history);
    var replay := Replay(w.fs, recs, failing);
    var done := replay.1;
    UndoSteps(s, w, failing, rmFailing);
    var order := SortByLength(Folders(done));
    var cleanup := Cleanup(replay.0, order, Basename(Parent(s.history[0].target)), rmFailing);
    var log := w.log + UndoneLines(done) + cleanup.1;
    assert UndoLast(s, w, failing, rmFailing).1.log == log;
    assert log[|w.log|..|w.log| + |done|] == UndoneLines(done);
  }

  /** What an undo does to the world: exactly the restored files move back,
      none of them one the platform refused, each logged as undone in
      order; no folder is created; and the only folders removed are the
      folders of restored files and their parents. */
  lemma UndoEffect(s: Session, w: World, failing: set<Path>, rmFailing: set<Path>)
    requires s.history != []
    ensures var r := UndoLast(s, w, failing, rmFailing).1;
      var done := Restored(s, w, failing);
      && (forall i | 0 <= i < |done| :: done[i].target !in failing)
      && Files(r.fs) == ApplyMoves(Files(w.fs), Inverse(done))
      && (forall p | IsDir(r.fs, p) :: IsDir(w.fs, p))
      && (forall p | IsDir(w.fs, p) && !IsDir(r.fs, p) ::
            exists i | 0 <= i < |done| :: p == Parent(done[i].target) || p == Parent(Parent(done[i].target)))
      && |w.log| + |done| <= |r.log| && r.log[|w.log|..|w.log| + |done|] == UndoneLines(done)
  {
    ReplayRestored(w.fs, Reverse(s.history), failing);
    UndoFiles(s, w, failing, rmFailing);
    UndoFolders(s, w, failing, rmFailing);
    UndoLog(s, w, failing, rmFailing);
  }
}

=== FILE: wrappers.dfy ===
/** The optional-value datatype the rest of the model returns. */
module Wrappers {

  datatype Option<T> = None | Some(value: T)
}
